=== FILE: README.md ===
# HSTS diagnostics of hexssl-cli, modelled in Dafny

This project models the HSTS module of `hexssl-cli`, a command-line tool that
audits a domain's HTTP Strict Transport Security deployment. The model covers:

- the `Strict-Transport-Security` header validator (`validate_hsts`), a loose
  reading of section 6.1 of RFC 6797;
- the Chromium preload-list lookup and the preload eligibility test;
- the redirect, subdomain and multi-path probes;
- the audit grading from A to E and the overall status;
- the domain-argument normaliser with its `DOMAIN_RE` check;
- two decisions of the command layer: parsing the `--paths` option and
  choosing the exit code of `check`.

Everything is written as pure functions. The network and DNS are parameters:

- `get: string -> Fetch` stands for `requests.get` with redirects followed.
  It gives either a response or the text of the exception it raised.
- `resolve: string -> bool` stands for `socket.getaddrinfo`.
- The downloaded preload list is an `Option<PreloadData>`.
- The IDNA encoder is a partial function `string -> Option<string>`.

Modules, one per source file, plus shared ones:

| file | module | models |
|---|---|---|
| wrappers.dfy | `Wrappers` | `Option` and `Result` |
| pytext.dfy | `PyText` | the Python `str` operations the code relies on: `isspace`, `strip()`, `split`, `join`, `lower()`, `startswith`, `in`, `int()`, `str()` |
| http.dfy | `Http` | what a fetch returns |
| parser.dfy | `Parser` | parser.py |
| parser_examples.dfy | `ParserExamples` | concrete headers, first proved for every header of their shape |
| preload.dfy | `Preload` | preload.py |
| redirects.dfy | `Redirects` | redirects.py |
| subdomains.dfy | `Subdomains` | subdomains.py |
| scan.dfy | `PathScan` | scan.py |
| audit.dfy | `Audit` | audit.py |
| domain.dfy | `Domain` | utils.py |
| commands.dfy | `Commands` | the `--paths` parser and the `check` command of commands.py |

The header validator is split into three stages:

1. The header value is split into trimmed segments.
2. Each segment is classified as a `Directive`.
3. The loop runs over those directives (`Parser.Run`).

Because the loop's properties are proved over directives, they do not depend on
string details.

The model follows the code, including these behaviours of it:

- No issue is added for an unknown directive.
- A negative max-age is accepted.
- `overall_status` is only ever `ok` or `warning`.
- A failed fetch of the domain does not cut the audit short. `get_preload_info`
  turns it into a fallback record, and the audit goes on to grade. Only an
  exception raised by the preload-list lookup ends the audit with an error.

## Model

All source paths are under `src/hexssl_cli/modules/hsts/`.

| member | source | states |
|---|---|---|
| PyText.Strip | src/hexssl_cli/modules/hsts/parser.py:18 | `strip()` leaves no whitespace at either end and never lengthens the text |
| PyText.StripIsSlice | src/hexssl_cli/modules/hsts/parser.py:18 | `strip()` returns a slice of its input, with only whitespace cut off on each side |
| PyText.StripUnique | src/hexssl_cli/modules/hsts/parser.py:18 | any whitespace around a trimmed core strips to exactly that core |
| PyText.StripStripped | src/hexssl_cli/modules/hsts/parser.py:18 | stripping trimmed text changes nothing |
| PyText.StripKeeps | src/hexssl_cli/modules/hsts/commands.py:91 | trimming never brings in a character that was not there, so a separator-free piece stays separator-free |
| PyText.Split | src/hexssl_cli/modules/hsts/parser.py:18 | `split(sep)` gives at least one piece, and no piece contains the separator |
| PyText.JoinSplit | src/hexssl_cli/modules/hsts/parser.py:18 | joining the pieces of a split with the separator rebuilds the text |
| PyText.SplitJoin | src/hexssl_cli/modules/hsts/parser.py:18 | splitting a join of separator-free pieces gives the pieces back |
| PyText.SplitAppend | src/hexssl_cli/modules/hsts/parser.py:18 | appending a separator and a separator-free tail adds exactly one piece at the end |
| PyText.SplitAfterPiece | src/hexssl_cli/modules/hsts/parser.py:18 | a separator-free piece, a separator, then text splits into that piece followed by the text's pieces |
| PyText.SplitNoSep | src/hexssl_cli/modules/hsts/parser.py:18 | text without the separator is one piece |
| PyText.ParseInt | src/hexssl_cli/modules/hsts/parser.py:27 | `int()` rejects any text holding one of the separators U+001C..U+001F, which `strip()` removes but `int()` does not skip; it accepts only text that, once trimmed, is a digit or a sign followed by digits only, ending in a digit; with no separator present and setting aside CPython's 4300-digit limit, it always accepts plain digits, giving a value of at least zero; a negative value needs a leading '-' |
| PyText.ParseDigits | src/hexssl_cli/modules/hsts/parser.py:27 | digits alone and digits after '+' read as their decimal value, digits after '-' as its negation ("+31536000" is 31536000, "-5" is -5), the 4300-digit limit aside |
| PyText.LeadingZero | src/hexssl_cli/modules/hsts/parser.py:27 | a leading zero does not change the value of a run of digits |
| PyText.ParseLeadingZero | src/hexssl_cli/modules/hsts/parser.py:27 | `int()` reads "007" as it reads "7": leading zeros are ignored |
| PyText.Lower | src/hexssl_cli/modules/hsts/parser.py:30 | `lower()` on ASCII letters: the length is kept, no capital is left, and only capitals change, each to its small letter |
| PyText.LowerIdempotent | src/hexssl_cli/modules/hsts/parser.py:30 | lowering twice is lowering once |
| PyText.LowerMatches | src/hexssl_cli/modules/hsts/parser.py:30-32 | comparing the lowered text with a lower-case word is the same as comparing the two letter by letter up to case |
| PyText.ParseShowInt | src/hexssl_cli/modules/hsts/parser.py:27 | `int(str(n)) == n` for every integer of at most 4300 digits (the model has no digit limit, so it states this for all n), negative ones included |
| PyText.ParseIntPadded | src/hexssl_cli/modules/hsts/parser.py:27 | the whitespace `int()` skips (`isspace()` less U+001C..U+001F) around a number does not change what `int()` reads |
| PyText.SeparatorNotSkipped | src/hexssl_cli/modules/hsts/parser.py:27 | "\x1c5" strips to "5" yet `int()` rejects it |
| Parser.ValidateHsts | src/hexssl_cli/modules/hsts/parser.py:13-41 | an absent or empty header gives present=false, no max-age, both flags false, issues=[no_hsts_header] and ok=false; present holds exactly for a non-empty value; every result has ok exactly when the issue list is empty |
| Parser.Segments | src/hexssl_cli/modules/hsts/parser.py:18 | at least one segment; each is trimmed and contains no ';' |
| Parser.MaxAgeValue | src/hexssl_cli/modules/hsts/parser.py:27 | a segment without '=' has no value, so it is reported as invalid_max_age |
| Parser.MaxAgeValueIs | src/hexssl_cli/modules/hsts/parser.py:27 | the value is the integer between the first and the second '='; text after a second '=' is ignored |
| Parser.Classify | src/hexssl_cli/modules/hsts/parser.py:25-33 | a segment is a max-age segment exactly when it starts with "max-age", matched case-sensitively; otherwise a trimmed segment is includeSubDomains or preload exactly when it equals that word letter by letter, ignoring case |
| Parser.Step | src/hexssl_cli/modules/hsts/parser.py:24-33 | one loop pass keeps the earlier issues and adds at most one, and only invalid_max_age; it never clears a flag; a parsed max-age replaces the stored one, and any other segment leaves it unchanged |
| Parser.Run | src/hexssl_cli/modules/hsts/parser.py:24-33 | over the whole loop, every issue is invalid_max_age and there is at most one per segment |
| Parser.IssuesLayout | src/hexssl_cli/modules/hsts/parser.py:35-38 | the final issue list is the loop's issues, then missing_max_age exactly when no max-age was read, then preload_without_subdomains exactly when preload came without includeSubDomains |
| Parser.IssueCodesDistinct | src/hexssl_cli/modules/hsts/parser.py:16-38 | each issue has its own code text |
| Parser.RunMaxAge | src/hexssl_cli/modules/hsts/parser.py:24-29 | after the loop, max_age is None exactly when no segment parsed to an integer; otherwise the last parsed value wins |
| Parser.RunFlags | src/hexssl_cli/modules/hsts/parser.py:24-33 | each flag is set exactly when some segment classified as that keyword |
| Parser.RunIssues | src/hexssl_cli/modules/hsts/parser.py:24-29 | the loop adds only invalid_max_age, once for each max-age segment that fails to parse |
| Parser.MissingMaxAgeIff | src/hexssl_cli/modules/hsts/parser.py:25-36 | for a present header, missing_max_age is reported exactly when no max-age segment parsed, that is, exactly when max_age is None |
| Parser.PreloadIssueIff | src/hexssl_cli/modules/hsts/parser.py:37-38 | preload_without_subdomains is reported exactly when preload is set and includeSubDomains is not |
| Parser.InvalidMaxAgeFirst | src/hexssl_cli/modules/hsts/parser.py:24-38 | the issue list opens with one invalid_max_age per failing segment; after those come missing_max_age exactly when the result has no max-age, then preload_without_subdomains exactly when preload is set without includeSubDomains |
| Parser.FlagsIff | src/hexssl_cli/modules/hsts/parser.py:30-33 | for a whole header, each flag is reported exactly when some segment is that keyword |
| Parser.LastMaxAgeWins | src/hexssl_cli/modules/hsts/parser.py:24-28 | with several valid max-age segments, the last one is the result's max_age |
| Parser.ClassifyKeywords | src/hexssl_cli/modules/hsts/parser.py:25-33 | the max-age prefix is matched case-sensitively; other trimmed segments are includeSubDomains or preload exactly when they equal that word up to letter case |
| Parser.ClassifyIgnoresCase | src/hexssl_cli/modules/hsts/parser.py:30-33 | two trimmed segments that differ only in letter case classify alike, unless one has the max-age prefix |
| Parser.IgnoredSegmentChangesNothing | src/hexssl_cli/modules/hsts/parser.py:24-33 | appending a segment the loop ignores leaves the whole result unchanged |
| Parser.DirectivesAppend | src/hexssl_cli/modules/hsts/parser.py:18 | appending `;` and a segment adds exactly that segment's classification at the end |
| ParserExamples.MaxAgeSegment | src/hexssl_cli/modules/hsts/parser.py:25-27 | a segment `max-age=<n>`, with n written as `str(n)` writes it, sets exactly n |
| ParserExamples.NonNumericSegment | src/hexssl_cli/modules/hsts/parser.py:26-29 | a max-age segment whose value is not an integer is invalid |
| ParserExamples.NotANumber | src/hexssl_cli/modules/hsts/parser.py:27 | text that starts with neither a digit nor a sign is not an integer |
| ParserExamples.IncludeSubDomainsWord | src/hexssl_cli/modules/hsts/parser.py:30-31 | any letter-case spelling of includeSubDomains sets the flag |
| ParserExamples.PreloadWord | src/hexssl_cli/modules/hsts/parser.py:32-33 | any letter-case spelling of preload sets the flag |
| ParserExamples.IgnoredWord | src/hexssl_cli/modules/hsts/parser.py:24-33 | a trimmed segment that does not start with "max-age" and has the length of neither keyword is ignored |
| ParserExamples.IncludeSubDomainsSegment | src/hexssl_cli/modules/hsts/parser.py:30-31 | " includeSubDomains" is trimmed and then sets the flag |
| ParserExamples.UpperCaseIncludeSubDomains | src/hexssl_cli/modules/hsts/parser.py:30-31 | "INCLUDESUBDOMAINS" sets the flag |
| ParserExamples.PreloadSegment | src/hexssl_cli/modules/hsts/parser.py:32-33 | " preload" is trimmed and then sets the flag |
| ParserExamples.MixedCasePreload | src/hexssl_cli/modules/hsts/parser.py:32-33 | "PreLoad" sets the flag |
| ParserExamples.OneSegment | src/hexssl_cli/modules/hsts/parser.py:18 | a header without `;` runs the loop once, on its own trimmed text |
| ParserExamples.ThreeSegments | src/hexssl_cli/modules/hsts/parser.py:18 | a header of three `;`-separated segments classifies segment by segment |
| ParserExamples.RunFullPolicy | src/hexssl_cli/modules/hsts/parser.py:24-33 | the loop over max-age, includeSubDomains, preload sets all three and adds no issue |
| ParserExamples.FullPolicy | src/hexssl_cli/modules/hsts/parser.py:18-41 | any header of a valid max-age, includeSubDomains and preload segment, in that order, is ok with both flags |
| ParserExamples.MaxAgeAlone | src/hexssl_cli/modules/hsts/parser.py:18-41 | a lone `max-age=<n>` is ok for every integer n (of at most 4300 digits, which `str` and `int` require), with neither flag |
| ParserExamples.PreloadAlone | src/hexssl_cli/modules/hsts/parser.py:35-38 | a lone preload gives [missing_max_age, preload_without_subdomains], in that order |
| ParserExamples.NonNumericAlone | src/hexssl_cli/modules/hsts/parser.py:26-36 | a lone non-numeric max-age gives [invalid_max_age, missing_max_age] |
| ParserExamples.IgnoredAlone | src/hexssl_cli/modules/hsts/parser.py:24-36 | a header that is one segment, which the loop ignores, gives only missing_max_age |
| ParserExamples.RecommendedHeader | src/hexssl_cli/modules/hsts/parser.py:18-41 | "max-age=31536000; includeSubDomains; preload" is ok, with max_age 31536000 and both flags |
| ParserExamples.PreloadOnly | src/hexssl_cli/modules/hsts/parser.py:35-38 | "preload" gives missing_max_age, then preload_without_subdomains |
| ParserExamples.NonNumericHeader | src/hexssl_cli/modules/hsts/parser.py:26-36 | "max-age=abc" gives invalid_max_age, then missing_max_age |
| ParserExamples.UpperCaseMaxAge | src/hexssl_cli/modules/hsts/parser.py:25 | "MAX-AGE=5" sets no max-age |
| ParserExamples.SeparatorBeforeMaxAge | src/hexssl_cli/modules/hsts/parser.py:25-29 | `max-age=\x1c5` is reported as invalid_max_age and then missing_max_age, because `int()` raises on the separator |
| ParserExamples.NegativeMaxAge | src/hexssl_cli/modules/hsts/parser.py:27 | "max-age=-5" is accepted, with max_age -5 and no issue |
| Preload.ScanEntries | src/hexssl_cli/modules/hsts/preload.py:43-47 | the entry loop never answers "unknown", and it raises only on an entry that is not an object |
| Preload.StopAt | src/hexssl_cli/modules/hsts/preload.py:43-45 | the position the loop stops at: every earlier entry is a record without the domain's name |
| Preload.ScanStops | src/hexssl_cli/modules/hsts/preload.py:43-47 | the loop's answer is decided by where it stops: a matching name gives "preloaded", a non-object raises, and running off the end gives "not_preloaded" |
| Preload.LookupWellFormed | src/hexssl_cli/modules/hsts/preload.py:43-47 | on a list of records, "preloaded" holds exactly when some entry's name equals the domain, and "not_preloaded" exactly when none does |
| Preload.CheckInPreloadList | src/hexssl_cli/modules/hsts/preload.py:35-47 | "unknown" exactly when there is no list; a missing entries key gives "not_preloaded"; "preloaded" only with an entry of that exact name |
| Preload.StatusNamesDistinct | src/hexssl_cli/modules/hsts/preload.py:67-84 | each status has its own text |
| Preload.LookupRaisesOnlyOnMalformed | src/hexssl_cli/modules/hsts/preload.py:43-44 | the lookup raises exactly on a document of the wrong shape, and never on a list of records |
| Preload.Eligible | src/hexssl_cli/modules/hsts/preload.py:87-94 | when a result's ok flag matches its issues, eligibility holds exactly when the header is present and ok, sets both flags, and has a max-age of at least 31536000 |
| Preload.EligibleIsOk | src/hexssl_cli/modules/hsts/preload.py:87-94 | an eligible result is ok |
| Preload.EligibleHeader | src/hexssl_cli/modules/hsts/preload.py:87-94 | a header is eligible exactly when it sets a max-age of at least 31536000 and both flags, and has no malformed max-age segment |
| Preload.EligibilityBoundary | src/hexssl_cli/modules/hsts/preload.py:90 | 31536000 is eligible and 31535999 is not |
| ParserExamples.RecommendedIsEligible | src/hexssl_cli/modules/hsts/preload.py:87-94 | the recommended header is eligible |
| Preload.GetPreloadInfo | src/hexssl_cli/modules/hsts/preload.py:50-96 | a failed fetch of the domain gives present=false, issues=[connection_error], ok=false, status "unknown" and eligible=false. After a successful fetch, the call raises exactly when the lookup raises; otherwise the header result is the validator's verdict on the response's header, the status is the lookup's, and eligible holds exactly when the header is present, has a max-age of at least 31536000, sets both flags and has no issues. A missing list gives status "unknown" |
| Preload.UnknownStatus | src/hexssl_cli/modules/hsts/preload.py:67-84 | the status is "unknown" exactly when the domain or the list could not be fetched |
| Preload.HeaderIndependentOfList | src/hexssl_cli/modules/hsts/preload.py:80-94 | the header verdict and eligibility do not depend on the list |
| Redirects.Hops | src/hexssl_cli/modules/hsts/redirects.py:12-13 | one (status, url) hop per intermediate response, in order |
| Redirects.HopsAppend | src/hexssl_cli/modules/hsts/redirects.py:12-13 | the hops of two stretches of history concatenate |
| Redirects.Follow | src/hexssl_cli/modules/hsts/redirects.py:4-14 | `_follow` returns the final URL, the final status, and the history as hops |
| Redirects.ScenarioRecord | src/hexssl_cli/modules/hsts/redirects.py:24-42 | on success: final_url, status and the hop history come from the final response, https_enforced holds exactly when the final URL starts with "https://", and error is None. On failure: final_url and status are None, history is empty, https_enforced is false and error carries the message |
| Redirects.RecordShape | src/hexssl_cli/modules/hsts/redirects.py:24-42 | exactly one of final_url and error is set, and HTTPS is enforced only on a probe that got through |
| Redirects.CheckRedirectScenarios | src/hexssl_cli/modules/hsts/redirects.py:16-44 | exactly the keys http_root and http_www, starting at "http://"+d+"/" and "http://www."+d+"/", each record built from the fetch of its own start URL |
| Redirects.ScenariosIndependent | src/hexssl_cli/modules/hsts/redirects.py:23-42 | a scenario's record depends only on the fetch of its own URL, so the other scenario's failure cannot change it |
| Redirects.ScenarioUrlsDistinct | src/hexssl_cli/modules/hsts/redirects.py:17-20 | the two start URLs differ |
| Subdomains.ProbeHost | src/hexssl_cli/modules/hsts/subdomains.py:32-49 | no_dns with no detail exactly when the host does not resolve; https with the header verdict exactly when it resolves and the fetch succeeds; otherwise error with the message |
| Subdomains.ProbeAll | src/hexssl_cli/modules/hsts/subdomains.py:31-49 | one entry per label, in order, with host label+"."+domain |
| Subdomains.CheckSubdomains | src/hexssl_cli/modules/hsts/subdomains.py:22-51 | six entries, for www, api, m, dev, static, cdn in that order; each entry is the probe of label+"."+domain, so an entry is no_dns exactly when its host does not resolve, and otherwise https with the verdict or error with the message |
| Subdomains.UnresolvedNotFetched | src/hexssl_cli/modules/hsts/subdomains.py:35-37 | an unresolved host's entry is (host, no_dns, None), whatever the network would answer |
| Subdomains.ProbeAllAppend | src/hexssl_cli/modules/hsts/subdomains.py:31 | probing two lists of labels one after the other is probing their concatenation |
| Subdomains.ErrorWordIff | src/hexssl_cli/modules/hsts/subdomains.py:36-49 | the status text, lowered, contains "error" exactly for the error status |
| PathScan.ProbePath | src/hexssl_cli/modules/hsts/scan.py:10-15 | the entry keeps the path; it is an error text exactly when the fetch failed, and that text is "error: " followed by the message; otherwise it is the header verdict |
| PathScan.ScanPaths | src/hexssl_cli/modules/hsts/scan.py:7-16 | one entry per path, in order, each from probing "https://"+domain+path |
| PathScan.ScanPathsAppend | src/hexssl_cli/modules/hsts/scan.py:9 | scanning two lists of paths one after the other is scanning their concatenation |
| PathScan.PathsKept | src/hexssl_cli/modules/hsts/scan.py:8-16 | the entries' paths are the input paths, in order |
| PathScan.NoSeparatorInserted | src/hexssl_cli/modules/hsts/scan.py:10 | the probed URL is "https://", the domain, then the path, with nothing inserted |
| Audit.GradeFor | src/hexssl_cli/modules/hsts/audit.py:20-30 | the override sequence equals the priority reading: E on a path error; else D on an unenforced redirect or a subdomain error; else C when not preloaded; else B when not ok; else A |
| Audit.GradeAIff | src/hexssl_cli/modules/hsts/audit.py:20-30 | the grade is A exactly when every check passes |
| Audit.GradeMonotone | src/hexssl_cli/modules/hsts/audit.py:20-30 | failing more checks never improves the grade |
| Audit.StatusFor | src/hexssl_cli/modules/hsts/audit.py:39 | the status is ok exactly for grades A and B, and warning otherwise; its text is "ok" exactly for A and B |
| Audit.ChecksOf | src/hexssl_cli/modules/hsts/audit.py:21-29 | the preload check fails exactly when the status is not_preloaded or unknown; the subdomain check, a text search for "error" in the status, fails exactly when some entry has the error status |
| Audit.RunFullAudit | src/hexssl_cli/modules/hsts/audit.py:10-40 | an exception from the preload step gives only the error "HSTS error: "+message; otherwise the report passes the probe results through unchanged, and its status is ok exactly for A or B |
| Audit.PathCheckIff | src/hexssl_cli/modules/hsts/audit.py:29 | the path check fails exactly when some path could not be fetched |
| Audit.RedirectCheckIff | src/hexssl_cli/modules/hsts/audit.py:25 | the redirect check fails exactly when some scenario did not end on an https URL |
| Audit.EntryErrorIff | src/hexssl_cli/modules/hsts/audit.py:27 | a subdomain entry counts against the domain exactly when its host resolved but could not be fetched |
| Audit.SubdomainCheckIff | src/hexssl_cli/modules/hsts/audit.py:27 | the subdomain check fails exactly when some resolved host could not be fetched |
| Audit.ChecksOfProbes | src/hexssl_cli/modules/hsts/audit.py:21-29 | the five checks, read off the probe results, are statements about what the network answered |
| Audit.AuditGrade | src/hexssl_cli/modules/hsts/audit.py:20-30 | the audit grade in terms of the network's answers: E, D, C, B, A by priority |
| Audit.NoListNoOk | src/hexssl_cli/modules/hsts/audit.py:23-24 | without the preload list the audit still runs, is graded C or worse, and its status is warning |
| Audit.UnreachableNoOk | src/hexssl_cli/modules/hsts/audit.py:12-24 | an unreachable domain still gets a report, and its status is warning |
| Domain.RegexMatch | src/hexssl_cli/modules/hsts/utils.py:13 | `DOMAIN_RE` under `re.match` accepts exactly text of 1 to 253 characters from [A-Za-z0-9.-], with no '-' at either end, optionally followed by one final newline |
| Domain.RegexReading | src/hexssl_cli/modules/hsts/utils.py:13 | the lookahead, the class repetition and the two hyphen assertions together hold exactly for that shape |
| Domain.DropDot | src/hexssl_cli/modules/hsts/utils.py:30-31 | at most one trailing '.' is removed |
| Domain.Normalise | src/hexssl_cli/modules/hsts/utils.py:27-34 | the text given to the encoder has no ASCII capital, and equals the stripped text, with one trailing dot dropped, letter by letter up to case |
| Domain.ValidateDomain | src/hexssl_cli/modules/hsts/utils.py:16-47 | fails with the IDN message exactly when the encoder fails; an accepted domain is the encoder's output and has the regex's shape; every encoding of that shape is accepted |
| Domain.NormaliseShape | src/hexssl_cli/modules/hsts/utils.py:27-34 | the text given to the encoder has no ASCII capital; it is as long as the stripped text, or one character shorter exactly when the stripped text ends in '.' (with ASCII lowering) |
| Domain.OneDotDropped | src/hexssl_cli/modules/hsts/utils.py:30-31 | a name ending in two dots keeps one |
| Domain.AcceptsNormalName | src/hexssl_cli/modules/hsts/utils.py:27-47 | with the identity encoder, a lower-case name of the right shape is accepted unchanged |
| Domain.AcceptsWithDotAndCase | src/hexssl_cli/modules/hsts/utils.py:27-47 | with the identity encoder, a trailing dot and capitals are normalised away before the check |
| Domain.RejectsBadShape | src/hexssl_cli/modules/hsts/utils.py:44-45 | whatever the encoder, an encoding of the wrong shape is rejected with the format message |
| Domain.ExampleCom | src/hexssl_cli/modules/hsts/utils.py:27-39 | "Example.COM." becomes "example.com" |
| Domain.RejectsLeadingHyphen | src/hexssl_cli/modules/hsts/utils.py:13 | with the identity encoder, a name starting with '-' is rejected |
| Domain.LeadingHyphen | src/hexssl_cli/modules/hsts/utils.py:44-45 | "-abc.com" is rejected |
| Domain.TooLong | src/hexssl_cli/modules/hsts/utils.py:13 | a name of 254 characters is rejected |
| Domain.EncoderFails | src/hexssl_cli/modules/hsts/utils.py:38-41 | a failing encoder gives "Invalid domain (IDN encoding failed)" |
| Commands.KeepPaths | src/hexssl_cli/modules/hsts/commands.py:91 | the kept paths are non-empty and trimmed, and there are no more of them than pieces |
| Commands.KeepPathsFrom | src/hexssl_cli/modules/hsts/commands.py:91 | every kept path is the trimmed text of some piece |
| Commands.KeepPathsClean | src/hexssl_cli/modules/hsts/commands.py:91 | pieces that are already trimmed and non-empty are all kept, unchanged and in order |
| Commands.KeepPathsAppend | src/hexssl_cli/modules/hsts/commands.py:91 | keeping distributes over concatenation, so order is kept |
| Commands.KeepPathsSnoc | src/hexssl_cli/modules/hsts/commands.py:91 | one more piece adds its trimmed text at the end, or nothing when that is blank |
| Commands.ParsePaths | src/hexssl_cli/modules/hsts/commands.py:91 | every parsed path is non-empty, trimmed and free of ',' |
| Commands.ParsePathsJoin | src/hexssl_cli/modules/hsts/commands.py:91 | joining clean paths with ',' and parsing gives them back |
| Commands.ParsePathsAppend | src/hexssl_cli/modules/hsts/commands.py:91 | one more comma-separated piece adds its trimmed text at the end, or nothing when it is blank |
| Commands.DefaultPathsParsed | src/hexssl_cli/modules/hsts/commands.py:87-91 | the default option "/" gives ["/"] |
| Commands.CheckExit | src/hexssl_cli/modules/hsts/commands.py:24-42 | exit 1 on a connection error or an absent header; exit 2 exactly when the header is present with issues; otherwise a normal return |
| Commands.CheckPasses | src/hexssl_cli/modules/hsts/commands.py:36-42 | `check` returns normally exactly when the fetch succeeded and the header is ok |
| Commands.Check | src/hexssl_cli/modules/hsts/commands.py:16-42 | a rejected domain argument ends `check` with the normaliser's message; an accepted one gives the exit code `check` computes for the normalised domain, fetched as "https://" plus that domain |
| Commands.RejectedNeverFetched | src/hexssl_cli/modules/hsts/commands.py:18 | a rejected domain argument is never fetched |

## Left out

- Real I/O is left out: `requests.get`, `socket.getaddrinfo` and `resp.raise_for_status`. Each becomes a function parameter.
  - Because `get` is a function, two fetches of the same URL in one run get the same answer.
  - Request headers (the User-Agent) and timeouts are not modelled. They have no logical effect.
- The redirect following inside the HTTP client is left out. `Response` carries the final URL and the intermediate responses the client reports.
- The case-insensitive header lookup of `requests` is left out. `Response.sts` is the value it returns.
- The exceptions of `requests` are left out. Each one is the text `str(e)` produces.
- `download_preload_list` is left out: the download, base64 and JSON decoding. Its result is a parameter, `None` when any of those steps fails.
  - A JSON "name" that is not a string is treated as a missing name, since it never equals a domain.
- The internals of `idna.encode` are left out. The encoder is a parameter.
- `int()` corner cases are left out: underscores between digits and non-ASCII digits.
- `PyText.ParseInt`: CPython 3.11 and later refuse to convert text of more than 4300 digits (`sys.int_max_str_digits`) and raise ValueError; the model accepts digits of any length, so a max-age that long is read as a number rather than reported as invalid_max_age.
- `PyText.ParseShowInt`: the round trip is stated for every integer; in CPython 3.11 and later `str()` itself raises for integers of more than 4300 digits.
- `lower()` only lowers ASCII. For the keyword tests this is still exact. Python's full lowering can turn one non-ASCII character into something that includes an ASCII letter: 'İ' (U+0130) becomes "i" followed by U+0307. But the U+0307 stays in the text, so the lowered text can never equal "includesubdomains" or "preload" that way.
- `Domain.NormaliseShape`: its length facts hold only for ASCII lowering. Python's `lower()` can lengthen text, so "İ." normalises to two characters, not one.
- `Domain.Normalise`: "no capital" and "equal up to case" cover ASCII letters only. Non-ASCII capitals reach the encoder unchanged.
- `Domain.ValidateDomain`: Unicode capitals are not lowered before the encoder, because only ASCII lowering is modelled.
- Python dict order in `check_redirect_scenarios` is left out. A Dafny map has no order, so only rendering would depend on it.
- Console and table rendering of every command is left out, along with the Typer wiring and cli.py.
- The exit status that Click gives a failing argument callback is not modelled. `Commands.Check` returns the error message instead.
- The `audit` command body at commands.py:131-151 is left out. Besides the indentation fault of line 135 (below), it reads `audit`, the function itself, where `result` was meant, so its `"error" in audit` test raises TypeError.
- Three lines do not parse as written in Python, so the files holding them do not compile. The model takes their evident intent:
  - parser.py:31 mixes a tab into its indentation; the model sets the flag.
  - audit.py:27 has three-space indentation; the model reads it as the same `if` as its neighbours.
  - commands.py:135 sits at column 0, so the indented line 137 after it is an unexpected indent and none of commands.py compiles. Every `Commands.*` row models commands.py as evidently meant, with line 135 indented into `audit`; the `audit` body itself stays left out, as said above.

=== FILE: audit.dfy ===
/**
 The full audit (audit.py): every probe run once, then a grade from A to E by a
 sequence of overrides, later checks taking precedence over earlier ones.
 */
module Audit {
  import opened Wrappers
  import opened PyText
  import opened Http
  import opened Parser
  import opened Preload
  import opened Redirects
  import opened Subdomains
  import opened PathScan

  /** `DEFAULT_PATHS`. */
  const DefaultPaths: seq<string> := ["/", "/login", "/api", "/admin"]

  datatype Grade = A | B | C | D | E

  /** The position of a grade, A best. */
  function Rank(g: Grade): nat {
    match g
    case A => 0
    case B => 1
    case C => 2
    case D => 3
    case E => 4
  }

  datatype OverallStatus = Ok | Warning

  /** The `overall_status` text. */
  function OverallName(s: OverallStatus): string {
    match s
    case Ok => "ok"
    case Warning => "warning"
  }

  /** The five conditions the grading tests, each true when that check fails. */
  datatype Checks = Checks(
    hstsNotOk: bool,
    notPreloaded: bool,
    redirectNotEnforced: bool,
    subdomainError: bool,
    pathError: bool)

  /** The grading as the code runs it: start at A and let each failing check overwrite the grade, in order. */
  function GradeFor(c: Checks): (g: Grade)
    ensures g == PriorityGrade(c)
  {
    var g := A;
    var g := if c.hstsNotOk then B else g;
    var g := if c.notPreloaded then C else g;
    var g := if c.redirectNotEnforced then D else g;
    var g := if c.subdomainError then D else g;
    if c.pathError then E else g
  }

  /** The same grading read as priorities: the worst failing check decides. */
  function PriorityGrade(c: Checks): Grade {
    if c.pathError then E
    else if c.redirectNotEnforced || c.subdomainError then D
    else if c.notPreloaded then C
    else if c.hstsNotOk then B
    else A
  }

  /** The grade is A exactly when every check passes. */
  lemma GradeAIff(c: Checks)
    ensures GradeFor(c) == A
            <==> !c.hstsNotOk && !c.notPreloaded && !c.redirectNotEnforced && !c.subdomainError && !c.pathError
  {
  }

  /** Every check that fails in `c` also fails in `d`. */
  predicate NoBetter(c: Checks, d: Checks) {
    && (c.hstsNotOk ==> d.hstsNotOk)
    && (c.notPreloaded ==> d.notPreloaded)
    && (c.redirectNotEnforced ==> d.redirectNotEnforced)
    && (c.subdomainError ==> d.subdomainError)
    && (c.pathError ==> d.pathError)
  }

  /** Failing more checks never improves the grade. */
  lemma GradeMonotone(c: Checks, d: Checks)
    requires NoBetter(c, d)
    ensures Rank(GradeFor(c)) <= Rank(GradeFor(d))
  {
  }

  /** `"ok" if grade in ["A", "B"] else "warning"`. */
  function StatusFor(g: Grade): (s: OverallStatus)
    ensures s == Ok <==> Rank(g) <= 1
    ensures OverallName(s) == "ok" <==> g == A || g == B
  {
    if g == A || g == B then Ok else Warning
  }

  /** The report `run_full_audit` returns when the preload step does not raise. */
  datatype AuditReport = AuditReport(
    hsts: HstsResult,
    preload: PreloadInfo,
    redirects: map<string, RedirectRecord>,
    subdomains: seq<SubEntry>,
    paths: seq<PathEntry>,
    grade: Grade,
    overall: OverallStatus)

  /** The conditions of the five `if`s, evaluated on the probe results. */
  function ChecksOf(hsts: HstsResult, info: PreloadInfo, redirects: map<string, RedirectRecord>,
                    subs: seq<SubEntry>, paths: seq<PathEntry>): (c: Checks)
    ensures c.notPreloaded <==> info.status == NotPreloaded || info.status == Unknown
    ensures c.subdomainError <==> exists i | 0 <= i < |subs| :: subs[i].status == SubError
  {
    assert forall i | 0 <= i < |subs| ::
             Contains(Lower(Subdomains.StatusName(subs[i].status)), "error") <==> subs[i].status == SubError by {
      forall i | 0 <= i < |subs|
        ensures Contains(Lower(Subdomains.StatusName(subs[i].status)), "error") <==> subs[i].status == SubError
      {
        ErrorWordIff(subs[i].status);
      }
    }
    Checks(
      !hsts.ok,
      info.status != Preloaded,
      exists name | name in redirects :: !redirects[name].httpsEnforced,
      exists i | 0 <= i < |subs| :: Contains(Lower(Subdomains.StatusName(subs[i].status)), "error"),
      exists i | 0 <= i < |paths| :: paths[i].outcome.ErrorText?)
  }

  /**
   `run_full_audit`: an exception from the preload step becomes the error text
   `HSTS error: <message>` and nothing else is probed; otherwise every probe
   runs and its results are passed into the report as they are.
   */
  function RunFullAudit(domain: string, get: string -> Fetch, resolve: string -> bool,
                        list: Option<PreloadData>): (r: Result<AuditReport, string>)
    ensures r.Failure? <==> GetPreloadInfo(domain, get, list).Failure?
    ensures r.Failure? ==> r.error == "HSTS error: " + GetPreloadInfo(domain, get, list).error
    ensures r.Success? ==>
              && r.value.hsts == GetPreloadInfo(domain, get, list).value.hsts
              && r.value.preload == GetPreloadInfo(domain, get, list).value.info
              && r.value.redirects == CheckRedirectScenarios(domain, get)
              && r.value.subdomains == CheckSubdomains(domain, get, resolve)
              && r.value.paths == ScanPaths(domain, DefaultPaths, get)
    ensures r.Success? ==> (r.value.overall == Ok <==> r.value.grade == A || r.value.grade == B)
  {
    match GetPreloadInfo(domain, get, list)
    case Failure(m) => Failure("HSTS error: " + m)
    case Success(p) =>
      var redirects := CheckRedirectScenarios(domain, get);
      var subs := CheckSubdomains(domain, get, resolve);
      var paths := ScanPaths(domain, DefaultPaths, get);
      var grade := GradeFor(ChecksOf(p.hsts, p.info, redirects, subs, paths));
      Success(AuditReport(p.hsts, p.info, redirects, subs, paths, grade, StatusFor(grade)))
  }

  /** Some path of `paths` could not be fetched. */
  predicate PathFetchFailed(domain: string, paths: seq<string>, get: string -> Fetch) {
    exists i | 0 <= i < |paths| :: get(PathUrl(domain, paths[i])).FetchError?
  }

  /** Some redirect scenario did not end on an `https://` URL. */
  predicate RedirectNotEnforced(domain: string, get: string -> Fetch) {
    exists name | name in ScenarioUrls(domain) ::
      !(get(ScenarioUrls(domain)[name]).Fetched? && StartsWith(get(ScenarioUrls(domain)[name]).response.url, "https://"))
  }

  /** The host of some label resolved but could not be fetched. */
  predicate SubdomainFetchFailed(domain: string, labels: seq<string>, get: string -> Fetch, resolve: string -> bool) {
    exists i | 0 <= i < |labels| ::
      resolve(HostOf(labels[i], domain)) && get("https://" + HostOf(labels[i], domain)).FetchError?
  }

  /** The path check fails exactly when a path could not be fetched. */
  lemma PathCheckIff(domain: string, paths: seq<string>, get: string -> Fetch)
    ensures (exists i | 0 <= i < |ScanPaths(domain, paths, get)| :: ScanPaths(domain, paths, get)[i].outcome.ErrorText?)
            <==> PathFetchFailed(domain, paths, get)
  {
    var r := ScanPaths(domain, paths, get);
    if PathFetchFailed(domain, paths, get) {
      var i :| 0 <= i < |paths| && get(PathUrl(domain, paths[i])).FetchError?;
      assert r[i] == ProbePath(domain, paths[i], get);
      assert r[i].outcome.ErrorText?;
    }
  }

  /** The redirect check fails exactly when some scenario did not end on HTTPS. */
  lemma RedirectCheckIff(domain: string, get: string -> Fetch)
    ensures (exists name | name in CheckRedirectScenarios(domain, get) :: !CheckRedirectScenarios(domain, get)[name].httpsEnforced)
            <==> RedirectNotEnforced(domain, get)
  {
    var m := CheckRedirectScenarios(domain, get);
    var urls := ScenarioUrls(domain);
    assert m.Keys == urls.Keys;
    forall name | name in m ensures m[name].start == urls[name] {
    }
  }

  /** One subdomain entry counts against the domain exactly when its host resolved but could not be fetched. */
  lemma EntryErrorIff(host: string, get: string -> Fetch, resolve: string -> bool)
    ensures Contains(Lower(Subdomains.StatusName(ProbeHost(host, get, resolve).status)), "error")
            <==> resolve(host) && get("https://" + host).FetchError?
  {
    ErrorWordIff(ProbeHost(host, get, resolve).status);
  }

  /**
   The subdomain check fails exactly when a resolved host could not be fetched:
   a host without DNS never counts against the domain.
   */
  lemma SubdomainCheckIff(domain: string, labels: seq<string>, get: string -> Fetch, resolve: string -> bool)
    ensures var subs := ProbeAll(labels, domain, get, resolve);
            (exists i | 0 <= i < |subs| :: Contains(Lower(Subdomains.StatusName(subs[i].status)), "error"))
            <==> SubdomainFetchFailed(domain, labels, get, resolve)
  {
    var subs := ProbeAll(labels, domain, get, resolve);
    forall i | 0 <= i < |subs|
      ensures Contains(Lower(Subdomains.StatusName(subs[i].status)), "error")
              <==> resolve(HostOf(labels[i], domain)) && get("https://" + HostOf(labels[i], domain)).FetchError?
    {
      EntryErrorIff(HostOf(labels[i], domain), get, resolve);
    }
  }

  /**
   The audit's grade in terms of what the network answered: E when a default
   path cannot be fetched; otherwise D when a redirect scenario does not end on
   HTTPS or a resolved subdomain cannot be fetched; otherwise C when the domain
   is not known to be preloaded; otherwise B when the header has issues; else A.
   */
  lemma AuditGrade(domain: string, get: string -> Fetch, resolve: string -> bool, list: Option<PreloadData>)
    requires RunFullAudit(domain, get, resolve, list).Success?
    ensures var r := RunFullAudit(domain, get, resolve, list).value;
            r.grade == (if PathFetchFailed(domain, DefaultPaths, get) then E
                        else if RedirectNotEnforced(domain, get) || SubdomainFetchFailed(domain, CommonSubs, get, resolve) then D
                        else if r.preload.status != Preloaded then C
                        else if !r.hsts.ok then B
                        else A)
  {
    var r := RunFullAudit(domain, get, resolve, list).value;
    ChecksOfProbes(domain, DefaultPaths, CommonSubs, get, resolve, r.hsts, r.preload);
  }

  /** The five checks, read off the probe results, are statements about what the network answered. */
  lemma ChecksOfProbes(domain: string, paths: seq<string>, labels: seq<string>, get: string -> Fetch,
                       resolve: string -> bool, hsts: HstsResult, info: PreloadInfo)
    ensures ChecksOf(hsts, info, CheckRedirectScenarios(domain, get), ProbeAll(labels, domain, get, resolve),
                     ScanPaths(domain, paths, get))
            == Checks(!hsts.ok, info.status != Preloaded, RedirectNotEnforced(domain, get),
                      SubdomainFetchFailed(domain, labels, get, resolve), PathFetchFailed(domain, paths, get))
  {
    PathCheckIff(domain, paths, get);
    RedirectCheckIff(domain, get);
    SubdomainCheckIff(domain, labels, get, resolve);
  }

  /** Without the preload list the audit is at best C, so its status is a warning. */
  lemma NoListNoOk(domain: string, get: string -> Fetch, resolve: string -> bool)
    ensures RunFullAudit(domain, get, resolve, None).Success?
    ensures Rank(RunFullAudit(domain, get, resolve, None).value.grade) >= Rank(C)
    ensures RunFullAudit(domain, get, resolve, None).value.overall == Warning
  {
  }

  /** An unreachable domain is at best C as well: the fallback record is never preloaded. */
  lemma UnreachableNoOk(domain: string, get: string -> Fetch, resolve: string -> bool, list: Option<PreloadData>)
    requires get("https://" + domain).FetchError?
    ensures RunFullAudit(domain, get, resolve, list).Success?
    ensures RunFullAudit(domain, get, resolve, list).value.overall == Warning
  {
  }
}

=== FILE: commands.dfy ===
/**
 Two decisions of the command layer (commands.py): how the `--paths` option of
 `scan` becomes a list, and which exit code `check` ends with.
 */
module Commands {
  import opened Wrappers
  import opened PyText
  import opened Http
  import opened Parser
  import opened Domain

  // ---------------------------------------------------------------------------
  // The --paths option
  // ---------------------------------------------------------------------------

  /** The default of `--paths`. */
  const DefaultPathsOption := "/"

  /** The comprehension's body over the pieces: each piece trimmed, blank ones dropped, order kept. */
  function KeepPaths(pieces: seq<string>): (r: seq<string>)
    ensures |r| <= |pieces|
    ensures forall k | 0 <= k < |r| :: r[k] != "" && IsStripped(r[k])
  {
    if |pieces| == 0 then []
    else
      var last := Strip(pieces[|pieces| - 1]);
      KeepPaths(pieces[..|pieces| - 1]) + (if last != "" then [last] else [])
  }

  /** `[p.strip() for p in paths.split(",") if p.strip()]`. */
  function ParsePaths(option: string): (r: seq<string>)
    ensures forall k | 0 <= k < |r| :: r[k] != "" && IsStripped(r[k]) && ',' !in r[k]
  {
    var pieces := Split(option, ',');
    var r := KeepPaths(pieces);
    KeepPathsFrom(pieces);
    forall k | 0 <= k < |r| ensures ',' !in r[k] {
      var i :| 0 <= i < |pieces| && r[k] == Strip(pieces[i]);
      StripKeeps(pieces[i], ',');
    }
    r
  }

  /** Every kept path is the trimmed text of some piece. */
  lemma {:induction false} KeepPathsFrom(pieces: seq<string>)
    ensures forall k | 0 <= k < |KeepPaths(pieces)| :: exists i | 0 <= i < |pieces| :: KeepPaths(pieces)[k] == Strip(pieces[i])
  {
    if |pieces| > 0 {
      var init := pieces[..|pieces| - 1];
      KeepPathsFrom(init);
      var r := KeepPaths(pieces);
      forall k | 0 <= k < |KeepPaths(pieces)| ensures exists i | 0 <= i < |pieces| :: KeepPaths(pieces)[k] == Strip(pieces[i]) {
        var last := Strip(pieces[|pieces| - 1]);
        assert r == KeepPaths(init) + (if last != "" then [last] else []);
        if k < |KeepPaths(init)| {
          var i :| 0 <= i < |init| && KeepPaths(init)[k] == Strip(init[i]);
          assert init[i] == pieces[i];
          assert r[k] == KeepPaths(init)[k] == Strip(pieces[i]);
        } else {
          var i := |pieces| - 1;
          assert r[k] == Strip(pieces[i]);
        }
      }
    } else {
      assert KeepPaths(pieces) == [];
    }
  }

  /** Pieces that are already trimmed and non-empty are all kept, as they are. */
  lemma {:induction false} KeepPathsClean(pieces: seq<string>)
    requires forall k | 0 <= k < |pieces| :: pieces[k] != "" && IsStripped(pieces[k])
    ensures KeepPaths(pieces) == pieces
  {
    if |pieces| > 0 {
      KeepPathsClean(pieces[..|pieces| - 1]);
      StripStripped(pieces[|pieces| - 1]);
      assert pieces[..|pieces| - 1] + [pieces[|pieces| - 1]] == pieces;
    }
  }

  /** A non-empty list is its front and its last element, also behind a prefix. */
  lemma SnocParts<T>(a: seq<T>, b: seq<T>)
    requires |b| > 0
    ensures b == b[..|b| - 1] + [b[|b| - 1]]
    ensures a + b == (a + b[..|b| - 1]) + [b[|b| - 1]]
  {
  }

  lemma Associative<T>(x: seq<T>, y: seq<T>, z: seq<T>)
    ensures (x + y) + z == x + (y + z)
  {
  }

  /** Keeping distributes over concatenation of piece lists. */
  lemma {:induction false} KeepPathsAppend(a: seq<string>, b: seq<string>)
    ensures KeepPaths(a + b) == KeepPaths(a) + KeepPaths(b)
  {
    if |b| == 0 {
      assert a + b == a;
    } else {
      var init := b[..|b| - 1];
      var x := b[|b| - 1];
      KeepPathsAppend(a, init);
      SnocParts(a, b);
      KeepPathsSnoc(a + init, x);
      KeepPathsSnoc(init, x);
      Associative(KeepPaths(a), KeepPaths(init), if Strip(x) != "" then [Strip(x)] else []);
    }
  }

  /** One more piece adds its trimmed text at the end, unless that is blank. */
  lemma KeepPathsSnoc(ps: seq<string>, x: string)
    ensures KeepPaths(ps + [x]) == KeepPaths(ps) + (if Strip(x) != "" then [Strip(x)] else [])
  {
    assert (ps + [x])[..|ps|] == ps;
  }

  /** Joining clean paths with ',' and parsing the result gives the paths back. */
  lemma ParsePathsJoin(paths: seq<string>)
    requires |paths| >= 1
    requires forall k | 0 <= k < |paths| :: paths[k] != "" && IsStripped(paths[k]) && ',' !in paths[k]
    ensures ParsePaths(Join(paths, ',')) == paths
  {
    SplitJoin(paths, ',');
    KeepPathsClean(paths);
  }

  /** A further comma-separated piece adds its trimmed text at the end, or nothing when it is blank. */
  lemma ParsePathsAppend(option: string, piece: string)
    requires ',' !in piece
    ensures ParsePaths(option + "," + piece) == ParsePaths(option) + (if Strip(piece) != "" then [Strip(piece)] else [])
  {
    assert option + "," + piece == option + [','] + piece;
    SplitAppend(option, ',', piece);
    KeepPathsAppend(Split(option, ','), [piece]);
    assert [piece][..0] == [];
  }

  /** The default option scans the root path only. */
  lemma DefaultPathsParsed()
    ensures ParsePaths(DefaultPathsOption) == ["/"]
  {
    assert IsStripped("/");
    ParsePathsJoin(["/"]);
    assert Join(["/"], ',') == "/";
  }

  // ---------------------------------------------------------------------------
  // The check command
  // ---------------------------------------------------------------------------

  /** The exit code of `check` for an accepted domain: 1, 1, 2 or a normal return. */
  function CheckExit(domain: string, get: string -> Fetch): (code: nat)
    ensures code <= 2
    ensures code == 1 <==> get("https://" + domain).FetchError? || !ValidateHsts(get("https://" + domain).response.sts).present
    ensures code == 2 <==> && get("https://" + domain).Fetched?
                           && ValidateHsts(get("https://" + domain).response.sts).present
                           && |ValidateHsts(get("https://" + domain).response.sts).issues| > 0
  {
    match get("https://" + domain)
    case FetchError(_) => 1
    case Fetched(resp) =>
      var result := ValidateHsts(resp.sts);
      if !result.present then 1
      else if result.ok then 0
      else 2
  }

  /** `check` returns normally exactly when the domain answered with a header the validator calls ok. */
  lemma CheckPasses(domain: string, get: string -> Fetch)
    ensures CheckExit(domain, get) == 0
            <==> get("https://" + domain).Fetched? && ValidateHsts(get("https://" + domain).response.sts).ok
  {
  }

  /** What `check` ends with: the argument callback's error, or an exit code. */
  datatype CheckOutcome = BadDomain(message: string) | Exit(code: nat)

  /** The `check` command: the domain argument is normalised first, and a rejected one is never fetched. */
  function Check(raw: string, idna: string -> Option<string>, get: string -> Fetch): (r: CheckOutcome)
    ensures r.BadDomain? <==> ValidateDomain(raw, idna).Failure?
    ensures r.BadDomain? ==> r.message == ErrorMessage(ValidateDomain(raw, idna).error)
    ensures r.Exit? ==> r.code <= 2
    ensures r.Exit? ==> r.code == CheckExit(ValidateDomain(raw, idna).value, get)
  {
    match ValidateDomain(raw, idna)
    case Failure(e) => BadDomain(ErrorMessage(e))
    case Success(d) => Exit(CheckExit(d, get))
  }

  /** A rejected domain argument gives the same outcome whatever the network would answer. */
  lemma RejectedNeverFetched(raw: string, idna: string -> Option<string>, get1: string -> Fetch, get2: string -> Fetch)
    requires ValidateDomain(raw, idna).Failure?
    ensures Check(raw, idna, get1) == Check(raw, idna, get2)
  {
  }
}

=== FILE: domain.dfy ===
/**
 The domain argument normaliser (utils.py): strip whitespace, drop one trailing
 dot, lower-case, IDNA-encode, then check `DOMAIN_RE`. The IDNA encoder of
 RFC 5891 is a parameter: a partial function, `None` where it raises.
 */
module Domain {
  import opened Wrappers
  import opened PyText

  datatype DomainError = IdnaFailed | BadFormat

  /** The text of the `BadParameter` each error raises. */
  function ErrorMessage(e: DomainError): string {
    match e
    case IdnaFailed => "Invalid domain (IDN encoding failed)"
    case BadFormat => "Invalid domain format"
  }

  /** The longest name `DOMAIN_RE` accepts. */
  const MaxDomainLength := 253

  // ---------------------------------------------------------------------------
  // DOMAIN_RE, `^(?=.{1,253}$)(?!-)[A-Za-z0-9.-]+(?<!-)$`, under `re.match`
  // ---------------------------------------------------------------------------

  /** The character class `[A-Za-z0-9.-]`. */
  predicate InClass(c: char) {
    ('A' <= c <= 'Z') || ('a' <= c <= 'z') || ('0' <= c <= '9') || c == '.' || c == '-'
  }

  /** Python's `$` matches at position `p`: at the very end, or just before a final newline. */
  predicate DollarAt(s: string, p: nat) {
    p == |s| || (p + 1 == |s| && s[p] == '\n')
  }

  /** `(?=.{1,253}$)` at the start: 1 to 253 characters other than a newline, then `$`. */
  predicate LookaheadHolds(s: string) {
    exists q: nat | 1 <= q <= MaxDomainLength && q <= |s| :: (forall k | 0 <= k < q :: s[k] != '\n') && DollarAt(s, q)
  }

  /** `(?!-)[A-Za-z0-9.-]+(?<!-)$`, with the repetition ending at position `p`. */
  predicate BodyEndsAt(s: string, p: nat) {
    && 1 <= p <= |s|
    && s[0] != '-'
    && (forall k | 0 <= k < p :: InClass(s[k]))
    && s[p - 1] != '-'
    && DollarAt(s, p)
  }

  /** The pattern read piece by piece: the lookahead holds and some end of the repetition satisfies the rest. */
  predicate PatternHolds(s: string) {
    LookaheadHolds(s) && exists p: nat | 1 <= p <= |s| :: BodyEndsAt(s, p)
  }

  /**
   `DOMAIN_RE.match(s)` succeeds. The regex accepts exactly the names of the
   shape its comment describes, allowing one final newline after them, which
   Python's `$` lets through.
   */
  function RegexMatch(s: string): (b: bool)
    ensures b <==> DomainShape(Chomp(s))
  {
    RegexReading(s);
    PatternHolds(s)
  }

  /** `s` without one final newline, if it has one. */
  function Chomp(s: string): string {
    if |s| > 0 && s[|s| - 1] == '\n' then s[..|s| - 1] else s
  }

  /** The shape the regex's comment describes: 1 to 253 characters of the class, no '-' at either end. */
  predicate DomainShape(d: string) {
    && 1 <= |d| <= MaxDomainLength
    && (forall k | 0 <= k < |d| :: InClass(d[k]))
    && d[0] != '-'
    && d[|d| - 1] != '-'
  }

  /** The pattern, read piece by piece, holds exactly for the names of that shape, with an optional final newline. */
  lemma RegexReading(s: string)
    ensures PatternHolds(s) <==> DomainShape(Chomp(s))
  {
    var c := Chomp(s);
    if PatternHolds(s) {
      var p: nat :| 1 <= p <= |s| && BodyEndsAt(s, p);
      var q: nat :| 1 <= q <= MaxDomainLength && q <= |s| && (forall k | 0 <= k < q :: s[k] != '\n') && DollarAt(s, q);
      assert s[p - 1] != '\n';
      if p == |s| {
        assert c == s;
        assert q == p;
      } else {
        assert c == s[..p];
        assert q != |s|;
      }
      assert DomainShape(c);
    }
    if DomainShape(c) {
      var p := |c|;
      assert forall k | 0 <= k < p :: s[k] == c[k];
      assert BodyEndsAt(s, p);
      assert forall k | 0 <= k < p :: s[k] != '\n';
      assert LookaheadHolds(s);
    }
  }

  // ---------------------------------------------------------------------------
  // validate_domain
  // ---------------------------------------------------------------------------

  /** `if domain.endswith("."): domain = domain[:-1]`. */
  function DropDot(s: string): (r: string)
    ensures r == s || r + "." == s
    ensures |r| >= |s| - 1
  {
    if |s| > 0 && s[|s| - 1] == '.' then s[..|s| - 1] else s
  }

  /** What reaches the encoder: stripped, one trailing dot dropped, lower-cased. */
  function Normalise(raw: string): (n: string)
    ensures forall k | 0 <= k < |n| :: !IsUpper(n[k])
    ensures EqualsIgnoringCase(n, DropDot(Strip(raw)))
  {
    Lower(DropDot(Strip(raw)))
  }

  /**
   `validate_domain`: the normalised text is encoded, and the encoding is
   returned when `DOMAIN_RE` matches it.
   */
  function ValidateDomain(raw: string, idna: string -> Option<string>): (r: Result<string, DomainError>)
    ensures r == Failure(IdnaFailed) <==> idna(Normalise(raw)).None?
    ensures r.Success? ==> idna(Normalise(raw)) == Some(r.value)
    ensures r.Success? ==> DomainShape(Chomp(r.value))
    ensures idna(Normalise(raw)).Some? && DomainShape(Chomp(idna(Normalise(raw)).value)) ==> r.Success?
  {
    match idna(Normalise(raw))
    case None => Failure(IdnaFailed)
    case Some(encoded) =>
      if RegexMatch(encoded) then Success(encoded) else Failure(BadFormat)
  }

  /** The encoder never sees an upper-case ASCII letter, surrounding whitespace, or more than the one dot removed. */
  lemma NormaliseShape(raw: string)
    ensures forall k | 0 <= k < |Normalise(raw)| :: !IsUpper(Normalise(raw)[k])
    ensures |Normalise(raw)| == |Strip(raw)| || |Normalise(raw)| + 1 == |Strip(raw)|
    ensures |Normalise(raw)| + 1 == |Strip(raw)| <==> |Strip(raw)| > 0 && Strip(raw)[|Strip(raw)| - 1] == '.'
  {
  }

  /** Only one trailing dot goes: a name ending in two dots keeps one. */
  lemma OneDotDropped(name: string)
    ensures DropDot(name + "..") == name + "."
    ensures DropDot(name + ".") == name
  {
    assert (name + "..")[..|name| + 1] == name + ".";
    assert (name + ".")[..|name|] == name;
  }

  /** With an encoder that changes nothing, an already normal name of the right shape is accepted as it is. */
  lemma AcceptsNormalName(d: string)
    requires DomainShape(d) && d[|d| - 1] != '.'
    requires forall k | 0 <= k < |d| :: !IsUpper(d[k])
    ensures ValidateDomain(d, s => Some(s)) == Success(d)
  {
    assert Normalise(d) == d by {
      assert IsStripped(d) by {
        assert InClass(d[0]) && InClass(d[|d| - 1]);
      }
      StripStripped(d);
      assert DropDot(d) == d;
      LowerNoUpper(d);
    }
    assert Chomp(d) == d;
  }

  /** A trailing dot and upper-case letters are normalised away before the check. */
  lemma AcceptsWithDotAndCase(raw: string, d: string)
    requires raw == Strip(raw) && |raw| == |d| + 1 && raw[|d|] == '.'
    requires forall k | 0 <= k < |d| :: LowerChar(raw[k]) == d[k]
    requires DomainShape(d) && d[|d| - 1] != '.'
    ensures ValidateDomain(raw, s => Some(s)) == Success(d)
  {
    assert DropDot(raw) == raw[..|d|];
    var l := Lower(raw[..|d|]);
    forall k | 0 <= k < |d| ensures l[k] == d[k] {
      assert l[k] == LowerChar(raw[k]);
    }
    assert l == d;
    assert Chomp(d) == d;
  }

  /** With any encoder, an encoding of the wrong shape is rejected as a bad format. */
  lemma RejectsBadShape(raw: string, idna: string -> Option<string>)
    requires idna(Normalise(raw)).Some? && !DomainShape(Chomp(idna(Normalise(raw)).value))
    ensures ValidateDomain(raw, idna) == Failure(BadFormat)
  {
  }

  lemma ExampleComText(raw: string, d: string)
    requires raw == "Example.COM." && d == "example.com"
    ensures IsStripped(raw) && |raw| == |d| + 1 && raw[|d|] == '.'
    ensures forall k | 0 <= k < |d| :: LowerChar(raw[k]) == d[k]
    ensures DomainShape(d) && d[|d| - 1] != '.'
  {
  }

  /** "Example.COM." becomes "example.com". */
  lemma ExampleCom()
    ensures ValidateDomain("Example.COM.", s => Some(s)) == Success("example.com")
  {
    ExampleComText("Example.COM.", "example.com");
    StripStripped("Example.COM.");
    AcceptsWithDotAndCase("Example.COM.", "example.com");
  }

  /** With an encoder that changes nothing, a name that starts with '-' is rejected. */
  lemma RejectsLeadingHyphen(raw: string)
    requires IsStripped(raw) && |raw| > 0 && raw[0] == '-'
    ensures ValidateDomain(raw, s => Some(s)) == Failure(BadFormat)
  {
    StripStripped(raw);
    var l := Normalise(raw);
    if |l| > 0 {
      assert l[0] == DropDot(raw)[0] == '-';
      assert Chomp(l) == [] || Chomp(l)[0] == '-';
    }
    RejectsBadShape(raw, s => Some(s));
  }

  /** "-abc.com" is rejected. */
  lemma LeadingHyphen()
    ensures ValidateDomain("-abc.com", s => Some(s)) == Failure(BadFormat)
  {
    assert IsStripped("-abc.com");
    RejectsLeadingHyphen("-abc.com");
  }

  /** A name of 254 characters is one too long. */
  lemma TooLong()
    ensures ValidateDomain(seq(254, k => 'a'), s => Some(s)) == Failure(BadFormat)
  {
    var raw := seq(254, k => 'a');
    assert IsStripped(raw);
    StripStripped(raw);
    assert DropDot(raw) == raw;
    LowerNoUpper(raw);
    assert Chomp(raw) == raw;
    RejectsBadShape(raw, s => Some(s));
  }

  /** An encoder that raises gives the IDN message. */
  lemma EncoderFails(raw: string)
    ensures ErrorMessage(ValidateDomain(raw, s => None).error) == "Invalid domain (IDN encoding failed)"
  {
  }
}

=== FILE: http.dfy ===
/**
 What the HTTP client and the resolver hand back. Every network call of the tool
 becomes a call of a function parameter: `get(url)` stands for `requests.get(url)`
 with redirects followed, and `resolve(host)` for a `socket.getaddrinfo` that
 either succeeds or raises.
 */
module Http {
  import opened Wrappers

  /**
   A response after redirects were followed: its final URL, its status code, the
   value of its `Strict-Transport-Security` header as the client's
   case-insensitive header map reports it, and the intermediate responses,
   earliest first.
   */
  datatype Response = Response(url: string, statusCode: int, sts: Option<string>, history: seq<Response>)

  /** The outcome of one GET: a response, or the text of the exception it raised. */
  datatype Fetch = Fetched(response: Response) | FetchError(message: string)
}

=== FILE: parser.dfy ===
/**
 The `Strict-Transport-Security` header validator (parser.py): a loose reading of
 section 6.1 of RFC 6797. The value is split on ';', each segment trimmed, and
 each segment classified: a case-sensitive `max-age` prefix, or a
 case-insensitive `includeSubDomains` or `preload`; every other segment is
 ignored without an issue.
 */
module Parser {
  import opened Wrappers
  import opened PyText

  /** The issue codes a result can carry. */
  datatype Issue = NoHstsHeader | InvalidMaxAge | MissingMaxAge | PreloadWithoutSubdomains | ConnectionError

  /** The text of each issue code, as the result lists it. */
  function IssueCode(i: Issue): string {
    match i
    case NoHstsHeader => "no_hsts_header"
    case InvalidMaxAge => "invalid_max_age"
    case MissingMaxAge => "missing_max_age"
    case PreloadWithoutSubdomains => "preload_without_subdomains"
    case ConnectionError => "connection_error"
  }

  /** `HSTSResult`: the stored `ok` flag is meant to hold exactly when there are no issues. */
  datatype HstsResult = HstsResult(
    present: bool,
    maxAge: Option<int>,
    includeSubdomains: bool,
    preload: bool,
    issues: seq<Issue>,
    ok: bool)

  predicate Consistent(r: HstsResult) {
    r.ok <==> |r.issues| == 0
  }

  // ---------------------------------------------------------------------------
  // One segment
  // ---------------------------------------------------------------------------

  /** What one trimmed segment of the header value contributes. */
  datatype Directive = MaxAge(value: Option<int>) | IncludeSubDomains | PreloadFlag | Ignored

  /** `int(part.split("=")[1])`: the text between the first and second '=', or `None` when that raises. */
  function MaxAgeValue(part: string): (v: Option<int>)
    ensures '=' !in part ==> v.None?
  {
    var pieces := Split(part, '=');
    assert '=' !in part ==> |pieces| == 1 by {
      if '=' !in part { SplitNoSep(part, '='); }
    }
    if |pieces| < 2 then None else ParseInt(pieces[1])
  }

  /** The `if`/`elif` chain of the loop body, in its order. */
  function Classify(part: string): (d: Directive)
    ensures d.MaxAge? <==> StartsWith(part, "max-age")
    ensures IsStripped(part) && !StartsWith(part, "max-age")
            ==> (d == IncludeSubDomains <==> EqualsIgnoringCase(part, "includesubdomains"))
    ensures IsStripped(part) && !StartsWith(part, "max-age")
            ==> (d == PreloadFlag <==> EqualsIgnoringCase(part, "preload"))
  {
    assert IsStripped(part) ==> Strip(part) == part by {
      if IsStripped(part) { StripStripped(part); }
    }
    LowerMatches(part, "includesubdomains");
    LowerMatches(part, "preload");
    if StartsWith(part, "max-age") then MaxAge(MaxAgeValue(part))
    else if Lower(Strip(part)) == "includesubdomains" then IncludeSubDomains
    else if Lower(part) == "preload" then PreloadFlag
    else Ignored
  }

  // ---------------------------------------------------------------------------
  // The loop over segments
  // ---------------------------------------------------------------------------

  /** The loop variables of `validate_hsts`. */
  datatype Scan = Scan(maxAge: Option<int>, includeSubdomains: bool, preload: bool, issues: seq<Issue>)

  const Start := Scan(None, false, false, [])

  /** One iteration of the loop, on the segment's classification. */
  function Step(st: Scan, d: Directive): (s: Scan)
    ensures st.issues <= s.issues && |s.issues| <= |st.issues| + 1
    ensures forall k | |st.issues| <= k < |s.issues| :: s.issues[k] == InvalidMaxAge
    ensures st.includeSubdomains ==> s.includeSubdomains
    ensures st.preload ==> s.preload
    ensures SetsMaxAge(d).Some? ==> s.maxAge == SetsMaxAge(d)
    ensures SetsMaxAge(d).None? ==> s.maxAge == st.maxAge
  {
    match d
    case MaxAge(None) => st.(issues := st.issues + [InvalidMaxAge])
    case MaxAge(Some(v)) => st.(maxAge := Some(v))
    case IncludeSubDomains => st.(includeSubdomains := true)
    case PreloadFlag => st.(preload := true)
    case Ignored => st
  }

  /** The loop run over the classified segments, first segment first. */
  function Run(ds: seq<Directive>): (st: Scan)
    ensures |st.issues| <= |ds|
    ensures forall k | 0 <= k < |st.issues| :: st.issues[k] == InvalidMaxAge
  {
    if |ds| == 0 then Start
    else Step(Run(ds[..|ds| - 1]), ds[|ds| - 1])
  }

  /** `[p.strip() for p in raw.split(";")]`. */
  function Segments(raw: string): (ps: seq<string>)
    ensures |ps| >= 1
    ensures forall k | 0 <= k < |ps| :: IsStripped(ps[k]) && ';' !in ps[k]
  {
    var pieces := Split(raw, ';');
    assert forall k | 0 <= k < |pieces| :: ';' !in Strip(pieces[k]) by {
      forall k | 0 <= k < |pieces| ensures ';' !in Strip(pieces[k]) {
        StripKeeps(pieces[k], ';');
      }
    }
    seq(|pieces|, k requires 0 <= k < |pieces| => Strip(pieces[k]))
  }

  /** The classification of every segment of a header value, in order. */
  function Directives(raw: string): seq<Directive> {
    var parts := Segments(raw);
    seq(|parts|, k requires 0 <= k < |parts| => Classify(parts[k]))
  }

  /** The max-age a classified segment sets, if it sets one. */
  function SetsMaxAge(d: Directive): Option<int> {
    if d.MaxAge? then d.value else None
  }

  /** The positions of the segments that start with `max-age` but do not parse. */
  function InvalidSegments(ds: seq<Directive>): set<nat> {
    set i: nat | i < |ds| && ds[i] == MaxAge(None)
  }

  /** `validate_hsts`: `raw` is the header's value, `None` when the header is missing. */
  function ValidateHsts(raw: Option<string>): (r: HstsResult)
    ensures Consistent(r)
    ensures r.present <==> raw.Some? && raw.value != ""
    ensures !r.present ==> r == HstsResult(false, None, false, false, [NoHstsHeader], false)
  {
    if raw.None? || raw.value == "" then
      HstsResult(false, None, false, false, [NoHstsHeader], false)
    else
      var st := Run(Directives(raw.value));
      var issues := st.issues
        + (if st.maxAge.None? then [MissingMaxAge] else [])
        + (if st.preload && !st.includeSubdomains then [PreloadWithoutSubdomains] else []);
      HstsResult(true, st.maxAge, st.includeSubdomains, st.preload, issues, |issues| == 0)
  }

  // ---------------------------------------------------------------------------
  // What the loop computes, stated over the segments
  // ---------------------------------------------------------------------------

  /** No max-age survives the loop exactly when no segment parsed one; otherwise the last one that parsed wins. */
  lemma {:induction false} RunMaxAge(ds: seq<Directive>)
    ensures Run(ds).maxAge.None? <==> forall i | 0 <= i < |ds| :: SetsMaxAge(ds[i]).None?
    ensures forall i | 0 <= i < |ds| && SetsMaxAge(ds[i]).Some? ::
              (forall j | i < j < |ds| :: SetsMaxAge(ds[j]).None?) ==> Run(ds).maxAge == SetsMaxAge(ds[i])
  {
    if |ds| > 0 {
      var n := |ds| - 1;
      var init := ds[..n];
      RunMaxAge(init);
      assert forall i | 0 <= i < n :: init[i] == ds[i];
      if SetsMaxAge(ds[n]).None? {
        assert Run(ds).maxAge == Run(init).maxAge;
      }
    }
  }

  /** A flag is set exactly when some segment is `includeSubDomains` (respectively `preload`). */
  lemma {:induction false} RunFlags(ds: seq<Directive>)
    ensures Run(ds).includeSubdomains <==> exists i | 0 <= i < |ds| :: ds[i] == IncludeSubDomains
    ensures Run(ds).preload <==> exists i | 0 <= i < |ds| :: ds[i] == PreloadFlag
  {
    if |ds| > 0 {
      var n := |ds| - 1;
      var init := ds[..n];
      RunFlags(init);
      assert forall i | 0 <= i < n :: init[i] == ds[i];
    }
  }

  /** The loop only ever adds `invalid_max_age`, once per segment that fails to parse. */
  lemma {:induction false} RunIssues(ds: seq<Directive>)
    ensures forall k | 0 <= k < |Run(ds).issues| :: Run(ds).issues[k] == InvalidMaxAge
    ensures |Run(ds).issues| == |InvalidSegments(ds)|
  {
    if |ds| > 0 {
      var n := |ds| - 1;
      var init := ds[..n];
      RunIssues(init);
      assert forall i | 0 <= i < n :: init[i] == ds[i];
      if ds[n] == MaxAge(None) {
        assert InvalidSegments(ds) == InvalidSegments(init) + {n};
      } else {
        assert InvalidSegments(ds) == InvalidSegments(init);
      }
    }
  }

  // ---------------------------------------------------------------------------
  // The candidate properties of validate_hsts
  // ---------------------------------------------------------------------------

  /** With a header present, `missing_max_age` is reported exactly when no segment parsed to an integer. */
  lemma MissingMaxAgeIff(h: string)
    requires h != ""
    ensures MissingMaxAge in ValidateHsts(Some(h)).issues
            <==> forall i | 0 <= i < |Directives(h)| :: SetsMaxAge(Directives(h)[i]).None?
    ensures ValidateHsts(Some(h)).maxAge.None? <==> MissingMaxAge in ValidateHsts(Some(h)).issues
  {
    var ds := Directives(h);
    RunMaxAge(ds);
    MissingLayout(Run(ds), ValidateHsts(Some(h)).issues);
  }

  /** In the issue list `validate_hsts` builds, missing_max_age appears exactly when the loop read no max-age. */
  lemma MissingLayout(st: Scan, issues: seq<Issue>)
    requires forall k | 0 <= k < |st.issues| :: st.issues[k] == InvalidMaxAge
    requires issues == st.issues
                       + (if st.maxAge.None? then [MissingMaxAge] else [])
                       + (if st.preload && !st.includeSubdomains then [PreloadWithoutSubdomains] else [])
    ensures MissingMaxAge in issues <==> st.maxAge.None?
  {
    assert MissingMaxAge !in st.issues;
  }

  /** `preload_without_subdomains` is reported exactly when preload is set and includeSubDomains is not. */
  lemma PreloadIssueIff(raw: Option<string>)
    ensures var r := ValidateHsts(raw);
            PreloadWithoutSubdomains in r.issues <==> r.preload && !r.includeSubdomains
  {
    if raw.Some? && raw.value != "" {
      RunIssues(Directives(raw.value));
      assert PreloadWithoutSubdomains !in Run(Directives(raw.value)).issues;
    }
  }

  /**
   The issues open with one `invalid_max_age` per failing max-age segment, and
   only `missing_max_age` or `preload_without_subdomains` follow them.
   */
  lemma InvalidMaxAgeFirst(h: string)
    requires h != ""
    ensures var r := ValidateHsts(Some(h));
            var n := |InvalidSegments(Directives(h))|;
            && n <= |r.issues| <= n + 2
            && (forall k | 0 <= k < n :: r.issues[k] == InvalidMaxAge)
            && (forall k | n <= k < |r.issues| :: r.issues[k] == MissingMaxAge || r.issues[k] == PreloadWithoutSubdomains)
            && r.issues[n..] == (if r.maxAge.None? then [MissingMaxAge] else [])
                                + (if r.preload && !r.includeSubdomains then [PreloadWithoutSubdomains] else [])
  {
    var ds := Directives(h);
    RunIssues(ds);
    IssuesLayout(Run(ds), ValidateHsts(Some(h)).issues);
  }

  /** The issue list `validate_hsts` builds from the loop's issues: the loop's first, then at most two more. */
  lemma IssuesLayout(st: Scan, issues: seq<Issue>)
    requires forall k | 0 <= k < |st.issues| :: st.issues[k] == InvalidMaxAge
    requires issues == st.issues
                       + (if st.maxAge.None? then [MissingMaxAge] else [])
                       + (if st.preload && !st.includeSubdomains then [PreloadWithoutSubdomains] else [])
    ensures |st.issues| <= |issues| <= |st.issues| + 2
    ensures forall k | 0 <= k < |st.issues| :: issues[k] == InvalidMaxAge
    ensures forall k | |st.issues| <= k < |issues| :: issues[k] == MissingMaxAge || issues[k] == PreloadWithoutSubdomains
    ensures issues[..|st.issues|] == st.issues
    ensures issues[|st.issues|..] == (if st.maxAge.None? then [MissingMaxAge] else [])
                                     + (if st.preload && !st.includeSubdomains then [PreloadWithoutSubdomains] else [])
  {
  }

  /** The flags report whether some segment was `includeSubDomains` or `preload`. */
  lemma FlagsIff(h: string)
    requires h != ""
    ensures ValidateHsts(Some(h)).includeSubdomains <==> exists i | 0 <= i < |Directives(h)| :: Directives(h)[i] == IncludeSubDomains
    ensures ValidateHsts(Some(h)).preload <==> exists i | 0 <= i < |Directives(h)| :: Directives(h)[i] == PreloadFlag
  {
    RunFlags(Directives(h));
  }

  /** With several valid max-age segments the last one wins. */
  lemma LastMaxAgeWins(h: string, i: nat)
    requires h != "" && i < |Directives(h)|
    requires SetsMaxAge(Directives(h)[i]).Some?
    requires forall j | i < j < |Directives(h)| :: SetsMaxAge(Directives(h)[j]).None?
    ensures ValidateHsts(Some(h)).maxAge == SetsMaxAge(Directives(h)[i])
  {
    RunMaxAge(Directives(h));
  }

  /**
   The `max-age` prefix is matched case-sensitively; a trimmed segment without it
   is `includeSubDomains` or `preload` exactly when it equals that word up to
   letter case.
   */
  lemma ClassifyKeywords(p: string)
    requires IsStripped(p)
    ensures Classify(p).MaxAge? <==> StartsWith(p, "max-age")
    ensures !StartsWith(p, "max-age") ==> (Classify(p) == IncludeSubDomains <==> Lower(p) == "includesubdomains")
    ensures !StartsWith(p, "max-age") ==> (Classify(p) == PreloadFlag <==> Lower(p) == "preload")
  {
    StripStripped(p);
  }

  /** Two trimmed segments that differ only in letter case classify alike, unless one is a max-age segment. */
  lemma ClassifyIgnoresCase(p: string, q: string)
    requires IsStripped(p) && IsStripped(q)
    requires Lower(p) == Lower(q)
    requires !StartsWith(p, "max-age") && !StartsWith(q, "max-age")
    ensures Classify(p) == Classify(q)
  {
    StripStripped(p);
    StripStripped(q);
  }

  /** A segment the loop ignores, appended to a header value, changes nothing in the result. */
  lemma IgnoredSegmentChangesNothing(h: string, extra: string)
    requires h != "" && ';' !in extra
    requires Classify(Strip(extra)) == Ignored
    ensures ValidateHsts(Some(h + ";" + extra)) == ValidateHsts(Some(h))
  {
    var longer := Directives(h + ";" + extra);
    DirectivesAppend(h, extra);
    assert longer[..|longer| - 1] == Directives(h);
    assert Run(longer) == Run(Directives(h));
  }

  /** Appending `;` and a segment adds one classified segment at the end. */
  lemma DirectivesAppend(h: string, extra: string)
    requires ';' !in extra
    ensures Directives(h + ";" + extra) == Directives(h) + [Classify(Strip(extra))]
  {
    assert h + ";" + extra == h + [';'] + extra;
    SplitAppend(h, ';', extra);
    var pieces := Split(h, ';');
    var longer := Split(h + ";" + extra, ';');
    assert longer == pieces + [extra];
    var ds := Directives(h + ";" + extra);
    var es := Directives(h) + [Classify(Strip(extra))];
    assert |ds| == |es|;
    forall k | 0 <= k < |ds| ensures ds[k] == es[k] {
      if k < |pieces| {
        assert longer[k] == pieces[k];
      }
    }
  }

  /** The value is read between the first and the second '='; anything after a second '=' is dropped. */
  lemma MaxAgeValueIs(w: string, t: string, rest: string)
    requires '=' !in w && '=' !in t
    ensures MaxAgeValue(w + "=" + t) == ParseInt(t)
    ensures MaxAgeValue(w + "=" + t + "=" + rest) == ParseInt(t)
  {
    assert w + "=" + t == w + ['='] + t;
    SplitAfterPiece(w, '=', t);
    SplitNoSep(t, '=');
    assert w + "=" + t + "=" + rest == w + ['='] + (t + ['='] + rest);
    SplitAfterPiece(w, '=', t + ['='] + rest);
    SplitAfterPiece(t, '=', rest);
  }

  /** Each issue has its own code, so the codes in a result name its issues unambiguously. */
  lemma IssueCodesDistinct(a: Issue, b: Issue)
    ensures IssueCode(a) == IssueCode(b) <==> a == b
  {
    if a != b {
      assert IssueCode(a)[0] != IssueCode(b)[0];
    }
  }
}

=== FILE: parser_examples.dfy ===
/**
 Concrete header values and what `validate_hsts` makes of them. Each example is
 first proved for every header of its shape, then instantiated. The last one
 carries the recommended header on to the preload eligibility test.
 */
module ParserExamples {
  import opened Wrappers
  import opened PyText
  import opened Parser
  import Preload

  // ---------------------------------------------------------------------------
  // Segments
  // ---------------------------------------------------------------------------

  /** Letter by letter lowering. */
  lemma LowerIs(s: string, t: string)
    requires |s| == |t|
    requires forall k | 0 <= k < |s| :: LowerChar(s[k]) == t[k]
    ensures Lower(s) == t
  {
    var l := Lower(s);
    forall k | 0 <= k < |s| ensures l[k] == t[k] {
      assert l[k] == LowerChar(s[k]);
    }
  }

  /** `str(n)` writes digits and at most a minus sign. */
  lemma ShowIntChars(n: int)
    ensures forall k | 0 <= k < |ShowInt(n)| :: IsDigit(ShowInt(n)[k]) || ShowInt(n)[k] == '-'
  {
    var ds := ShowInt(n);
    var m := ShowNat(if n < 0 then -n else n);
    forall k | 0 <= k < |ds| ensures IsDigit(ds[k]) || ds[k] == '-' {
      if n < 0 && k > 0 { assert ds[k] == m[k - 1]; }
      if n >= 0 { assert ds[k] == m[k]; }
    }
  }

  /** A segment `max-age=<n>`, written the way `str(n)` writes it, sets exactly `n`. */
  lemma MaxAgeSegment(p: string, n: int)
    requires p == "max-age=" + ShowInt(n)
    ensures ';' !in p
    ensures Classify(Strip(p)) == MaxAge(Some(n))
  {
    var ds := ShowInt(n);
    ShowIntStripped(n);
    ShowIntChars(n);
    assert p[|p| - 1] == ds[|ds| - 1];
    assert IsStripped(p);
    StripStripped(p);
    assert p[..7] == "max-age";
    assert p == "max-age" + ['='] + ds;
    assert '=' !in "max-age" && ';' !in "max-age=";
    assert '=' !in ds && ';' !in ds;
    SplitAfterPiece("max-age", '=', ds);
    SplitNoSep(ds, '=');
    ParseShowInt(n);
  }

  /** A segment `max-age=<t>` where `t` is not an integer is an invalid max-age. */
  lemma NonNumericSegment(p: string, t: string)
    requires p == "max-age=" + t && IsStripped(p)
    requires '=' !in t && ParseInt(t).None?
    ensures Classify(Strip(p)) == MaxAge(None)
  {
    StripStripped(p);
    assert p[..7] == "max-age";
    assert p == "max-age" + ['='] + t;
    SplitAfterPiece("max-age", '=', t);
    SplitNoSep(t, '=');
  }

  /** A trimmed word that starts like neither a digit nor a sign is not an integer. */
  lemma NotANumber(t: string)
    requires IsStripped(t) && |t| > 0 && !IsDigit(t[0]) && t[0] != '+' && t[0] != '-'
    ensures ParseInt(t) == None
  {
    StripStripped(t);
  }

  /** Any letter-case spelling of `includeSubDomains`, trimmed, sets the flag. */
  lemma IncludeSubDomainsWord(p: string)
    requires IsStripped(p) && |p| == 17
    requires forall k | 0 <= k < 17 :: LowerChar(p[k]) == "includesubdomains"[k]
    ensures Classify(p) == IncludeSubDomains
  {
    ClassifyKeywords(p);
    LowerIs(p, "includesubdomains");
  }

  /** Any letter-case spelling of `preload`, trimmed, sets the flag. */
  lemma PreloadWord(p: string)
    requires IsStripped(p) && |p| == 7
    requires forall k | 0 <= k < 7 :: LowerChar(p[k]) == "preload"[k]
    ensures Classify(p) == PreloadFlag
  {
    ClassifyKeywords(p);
    LowerIs(p, "preload");
  }

  /** A trimmed segment without the max-age prefix and with the length of neither keyword is ignored. */
  lemma IgnoredWord(p: string)
    requires IsStripped(p) && !StartsWith(p, "max-age")
    requires |p| != 17 && |p| != 7
    ensures Classify(p) == Ignored
  {
  }

  lemma IncludeSubDomainsSegment()
    ensures Classify(Strip(" includeSubDomains")) == IncludeSubDomains
  {
    StripUnique(" ", "includeSubDomains", "");
    assert " " + "includeSubDomains" + "" == " includeSubDomains";
    IncludeSubDomainsWord("includeSubDomains");
  }

  lemma UpperCaseIncludeSubDomains()
    ensures Classify("INCLUDESUBDOMAINS") == IncludeSubDomains
  {
    IncludeSubDomainsWord("INCLUDESUBDOMAINS");
  }

  lemma PreloadSegment()
    ensures Classify(Strip(" preload")) == PreloadFlag
  {
    StripUnique(" ", "preload", "");
    assert " " + "preload" + "" == " preload";
    PreloadWord("preload");
  }

  lemma MixedCasePreload()
    ensures Classify("PreLoad") == PreloadFlag
  {
    PreloadWord("PreLoad");
  }

  /** `str(31536000)`, one digit at a time. */
  lemma OneYearDigits()
    ensures ShowInt(31536000) == "31536000"
  {
    assert ShowNat(3) == "3";
    assert ShowNat(31) == "31";
    assert ShowNat(315) == "315";
    assert ShowNat(3153) == "3153";
    assert ShowNat(31536) == "31536";
    assert ShowNat(315360) == "315360";
    assert ShowNat(3153600) == "3153600";
  }

  // ---------------------------------------------------------------------------
  // Whole headers, by shape
  // ---------------------------------------------------------------------------

  /** A header without ';' is one segment. */
  lemma OneSegment(h: string, d: Directive)
    requires ';' !in h
    requires Classify(Strip(h)) == d
    ensures Run(Directives(h)) == Step(Start, d)
  {
    NoSemicolon(h);
    assert [d][..0] == [];
  }

  /** A text without ';' is one segment. */
  lemma NoSemicolon(a: string)
    requires ';' !in a
    ensures Directives(a) == [Classify(Strip(a))]
  {
    SplitNoSep(a, ';');
  }

  /** A header of three segments classifies segment by segment. */
  lemma ThreeSegments(a: string, b: string, c: string)
    requires ';' !in a && ';' !in b && ';' !in c
    ensures Directives(a + ";" + b + ";" + c) == [Classify(Strip(a)), Classify(Strip(b)), Classify(Strip(c))]
  {
    NoSemicolon(a);
    DirectivesAppend(a, b);
    DirectivesAppend(a + ";" + b, c);
  }

  /** The loop over a max-age, an includeSubDomains and a preload segment. */
  lemma RunFullPolicy(m: int)
    ensures Run([MaxAge(Some(m)), IncludeSubDomains, PreloadFlag]) == Scan(Some(m), true, true, [])
  {
    var d1 := [MaxAge(Some(m))];
    var d2 := [MaxAge(Some(m)), IncludeSubDomains];
    assert d1[..0] == [];
    assert Run(d1) == Scan(Some(m), false, false, []);
    assert d2[..1] == d1;
    assert Run(d2) == Scan(Some(m), true, false, []);
    assert [MaxAge(Some(m)), IncludeSubDomains, PreloadFlag][..2] == d2;
  }

  /** A max-age, an includeSubDomains and a preload segment, in that order, pass. */
  lemma FullPolicy(h: string, a: string, b: string, c: string, m: int)
    requires h == a + ";" + b + ";" + c
    requires ';' !in a && ';' !in b && ';' !in c
    requires Classify(Strip(a)) == MaxAge(Some(m))
    requires Classify(Strip(b)) == IncludeSubDomains
    requires Classify(Strip(c)) == PreloadFlag
    ensures ValidateHsts(Some(h)) == HstsResult(true, Some(m), true, true, [], true)
  {
    ThreeSegments(a, b, c);
    RunFullPolicy(m);
  }

  /** A lone `max-age=<n>` passes, whatever the sign of `n`. */
  lemma MaxAgeAlone(h: string, n: int)
    requires h == "max-age=" + ShowInt(n)
    ensures ValidateHsts(Some(h)) == HstsResult(true, Some(n), false, false, [], true)
  {
    MaxAgeSegment(h, n);
    OneSegment(h, MaxAge(Some(n)));
  }

  /** A lone spelling of `preload` lacks both a max-age and includeSubDomains. */
  lemma PreloadAlone(h: string)
    requires IsStripped(h) && |h| == 7 && ';' !in h
    requires forall k | 0 <= k < 7 :: LowerChar(h[k]) == "preload"[k]
    ensures ValidateHsts(Some(h))
            == HstsResult(true, None, false, true, [MissingMaxAge, PreloadWithoutSubdomains], false)
  {
    StripStripped(h);
    PreloadWord(h);
    PreloadFlagAlone(h);
  }

  lemma PreloadFlagAlone(h: string)
    requires h != "" && ';' !in h
    requires Classify(Strip(h)) == PreloadFlag
    ensures ValidateHsts(Some(h))
            == HstsResult(true, None, false, true, [MissingMaxAge, PreloadWithoutSubdomains], false)
  {
    OneSegment(h, PreloadFlag);
    var st := Run(Directives(h));
    assert st == Scan(None, false, true, []);
    var issues := st.issues + [MissingMaxAge] + [PreloadWithoutSubdomains];
    assert issues == [MissingMaxAge, PreloadWithoutSubdomains];
  }

  /** A lone non-numeric max-age is reported as invalid, and then as missing. */
  lemma NonNumericAlone(h: string, t: string)
    requires h == "max-age=" + t && IsStripped(h) && ';' !in h
    requires '=' !in t && ParseInt(t).None?
    ensures ValidateHsts(Some(h)) == HstsResult(true, None, false, false, [InvalidMaxAge, MissingMaxAge], false)
  {
    NonNumericSegment(h, t);
    OneSegment(h, MaxAge(None));
  }

  /** A lone segment the loop ignores leaves the max-age missing. */
  lemma IgnoredAlone(h: string)
    requires h != "" && ';' !in h
    requires Classify(Strip(h)) == Ignored
    ensures ValidateHsts(Some(h)) == HstsResult(true, None, false, false, [MissingMaxAge], false)
  {
    OneSegment(h, Ignored);
  }

  // ---------------------------------------------------------------------------
  // The examples
  // ---------------------------------------------------------------------------

  lemma OneYearSegment()
    ensures Classify(Strip("max-age=31536000")) == MaxAge(Some(31536000))
  {
    OneYearDigits();
    OneYearText("max-age=31536000");
  }

  lemma OneYearText(p: string)
    requires p == "max-age=" + "31536000" && ShowInt(31536000) == "31536000"
    ensures Classify(Strip(p)) == MaxAge(Some(31536000))
  {
    MaxAgeSegment(p, 31536000);
  }

  lemma RecommendedPieces(h: string)
    requires h == "max-age=31536000; includeSubDomains; preload"
    ensures h == "max-age=31536000" + ";" + " includeSubDomains" + ";" + " preload"
    ensures ';' !in "max-age=31536000" && ';' !in " includeSubDomains" && ';' !in " preload"
  {
  }

  /** The recommended value passes with both flags and a one-year max-age. */
  lemma RecommendedHeaderIs(h: string)
    requires h == "max-age=31536000; includeSubDomains; preload"
    ensures ValidateHsts(Some(h)) == HstsResult(true, Some(31536000), true, true, [], true)
  {
    RecommendedPieces(h);
    OneYearSegment();
    IncludeSubDomainsSegment();
    PreloadSegment();
    FullPolicy(h, "max-age=31536000", " includeSubDomains", " preload", 31536000);
  }

  lemma RecommendedHeader()
    ensures ValidateHsts(Some("max-age=31536000; includeSubDomains; preload"))
            == HstsResult(true, Some(31536000), true, true, [], true)
  {
    RecommendedHeaderIs("max-age=31536000; includeSubDomains; preload");
  }

  /** `preload` alone: both trailing issues, in order. */
  lemma PreloadOnly()
    ensures ValidateHsts(Some("preload"))
            == HstsResult(true, None, false, true, [MissingMaxAge, PreloadWithoutSubdomains], false)
  {
    PreloadAlone("preload");
  }

  /** `max-age=abc`: invalid, then missing. */
  lemma NonNumericHeader()
    ensures ValidateHsts(Some("max-age=abc"))
            == HstsResult(true, None, false, false, [InvalidMaxAge, MissingMaxAge], false)
  {
    NotANumber("abc");
    assert "max-age=abc" == "max-age=" + "abc";
    NonNumericAlone("max-age=abc", "abc");
  }

  lemma UpperMaxAgeText(h: string)
    requires h == "MAX-AGE=5"
    ensures IsStripped(h) && !StartsWith(h, "max-age") && ';' !in h && |h| == 9
  {
  }

  /** A trimmed, `;`-free segment that the loop ignores is a header with only missing_max_age. */
  lemma UpperMaxAgeIgnored(h: string)
    requires IsStripped(h) && !StartsWith(h, "max-age") && ';' !in h && |h| == 9
    ensures ValidateHsts(Some(h)) == HstsResult(true, None, false, false, [MissingMaxAge], false)
  {
    StripStripped(h);
    IgnoredWord(h);
    IgnoredAlone(h);
  }

  /** The max-age prefix is case-sensitive: `MAX-AGE=5` sets nothing. */
  lemma UpperCaseMaxAge()
    ensures ValidateHsts(Some("MAX-AGE=5")) == HstsResult(true, None, false, false, [MissingMaxAge], false)
  {
    UpperMaxAgeText("MAX-AGE=5");
    UpperMaxAgeIgnored("MAX-AGE=5");
  }

  /** Negative values are accepted as they are. */
  lemma NegativeMaxAge()
    ensures ValidateHsts(Some("max-age=-5")) == HstsResult(true, Some(-5), false, false, [], true)
  {
    assert ShowNat(5) == "5";
    assert ShowInt(-5) == "-5";
    MaxAgeAlone("max-age=-5", -5);
  }

  /** A U+001C before the number is not padding to `int()`, so the max-age is invalid. */
  lemma SeparatorBeforeMaxAge(h: string)
    requires h == "max-age=" + [28 as char, '5']
    ensures ValidateHsts(Some(h)) == HstsResult(true, None, false, false, [InvalidMaxAge, MissingMaxAge], false)
  {
    SeparatorNotSkipped();
    assert h[|h| - 1] == '5';
    NonNumericAlone(h, [28 as char, '5']);
  }

  // ---------------------------------------------------------------------------
  // Preload eligibility
  // ---------------------------------------------------------------------------

  /** The recommended header is eligible for the preload list. */
  lemma RecommendedIsEligible()
    ensures Preload.Eligible(ValidateHsts(Some("max-age=31536000; includeSubDomains; preload")))
  {
    RecommendedHeader();
  }
}

=== FILE: preload.dfy ===
/**
 Preload-list membership and eligibility (preload.py). The downloaded list is an
 input: `None` when the download or its decoding failed, otherwise the decoded
 JSON document, kept loose enough that the lookup can raise the way Python
 raises on a document of the wrong shape.
 */
module Preload {
  import opened Wrappers
  import opened PyText
  import opened Http
  import opened Parser

  /** One year in seconds: the least max-age the preload list accepts. */
  const MinPreloadMaxAge := 31536000

  // ---------------------------------------------------------------------------
  // The decoded list
  // ---------------------------------------------------------------------------

  /**
   One item of the `entries` array. A JSON object is a `Record`, whose `name` is
   the value under "name" when that is a string (`None` when the key is missing
   or holds another JSON value, which never equals a domain); anything else is a
   `NonRecord` of the named Python type.
   */
  datatype Entry = Record(name: Option<string>) | NonRecord(typeName: string)

  /**
   The value under "entries": missing, something iterable (a list, or a string
   or object, which iterate as strings), or a value Python cannot iterate.
   */
  datatype EntriesField = Absent | Items(items: seq<Entry>) | NonIterable(typeName: string)

  /** The decoded document: a JSON object, or another JSON value of the named type. */
  datatype PreloadData = Document(entries: EntriesField) | NonDocument(typeName: string)

  datatype PreloadStatus = Preloaded | NotPreloaded | Unknown

  /** The status text `get_preload_info` reports. */
  function StatusName(s: PreloadStatus): string {
    match s
    case Preloaded => "preloaded"
    case NotPreloaded => "not_preloaded"
    case Unknown => "unknown"
  }

  /** Each status has its own text. */
  lemma StatusNamesDistinct(a: PreloadStatus, b: PreloadStatus)
    ensures StatusName(a) == StatusName(b) <==> a == b
  {
    if a != b {
      assert StatusName(a)[0] != StatusName(b)[0];
    }
  }

  /** What `check_in_preload_list` returns, or the text of the exception it raises. */
  datatype Lookup = Status(status: PreloadStatus) | Raised(message: string)

  /** Python's message for `x.get(...)` on a value of type `t` that has no such method. */
  function NoAttributeGet(t: string): string {
    "'" + t + "' object has no attribute 'get'"
  }

  /** Python's message for `for x in v` on a value of type `t`. */
  function NotIterable(t: string): string {
    "'" + t + "' object is not iterable"
  }

  /** `entry.get("name") == domain`, for an entry that has a `get`. */
  predicate Names(e: Entry, domain: string) {
    e.Record? && e.name == Some(domain)
  }

  // ---------------------------------------------------------------------------
  // check_in_preload_list
  // ---------------------------------------------------------------------------

  /** The `for` loop over the entries: the first matching record returns, the first non-record raises. */
  function ScanEntries(items: seq<Entry>, domain: string): (r: Lookup)
    ensures r != Status(Unknown)
    ensures r.Raised? ==> exists i | 0 <= i < |items| :: items[i].NonRecord? && r.message == NoAttributeGet(items[i].typeName)
  {
    if |items| == 0 then Status(NotPreloaded)
    else match items[0]
      case NonRecord(t) => Raised(NoAttributeGet(t))
      case Record(name) =>
        if name == Some(domain) then Status(Preloaded)
        else
          var rest := ScanEntries(items[1..], domain);
          assert rest.Raised? ==> exists i | 1 <= i < |items| :: items[i].NonRecord? && rest.message == NoAttributeGet(items[i].typeName) by {
            if rest.Raised? {
              var j :| 0 <= j < |items[1..]| && items[1..][j].NonRecord? && rest.message == NoAttributeGet(items[1..][j].typeName);
              assert items[j + 1] == items[1..][j];
            }
          }
          rest
  }

  /** The position the loop stops at: the first entry that is not a record or names the domain, else the length. */
  function StopAt(items: seq<Entry>, domain: string): (n: nat)
    ensures n <= |items|
    ensures forall j | 0 <= j < n :: items[j].Record? && !Names(items[j], domain)
    ensures n < |items| ==> items[n].NonRecord? || Names(items[n], domain)
  {
    if |items| == 0 then 0
    else if items[0].NonRecord? || Names(items[0], domain) then 0
    else 1 + StopAt(items[1..], domain)
  }

  /**
   The loop's outcome is decided by the entry it stops at: a match gives
   "preloaded", a non-record raises, and running off the end gives
   "not_preloaded".
   */
  lemma {:induction false} ScanStops(items: seq<Entry>, domain: string)
    ensures var n := StopAt(items, domain);
            ScanEntries(items, domain)
            == if n == |items| then Status(NotPreloaded)
               else if items[n].NonRecord? then Raised(NoAttributeGet(items[n].typeName))
               else Status(Preloaded)
  {
    if |items| > 0 && items[0].Record? && !Names(items[0], domain) {
      ScanStops(items[1..], domain);
      var n := StopAt(items[1..], domain);
      if n < |items[1..]| {
        assert items[1..][n] == items[n + 1];
      }
    }
  }

  /** Every item is a JSON object: the list is as the lookup expects it. */
  predicate WellFormed(items: seq<Entry>) {
    forall i | 0 <= i < |items| :: items[i].Record?
  }

  /** On a list of records the lookup finds the domain exactly when some entry carries that name. */
  lemma LookupWellFormed(items: seq<Entry>, domain: string)
    requires WellFormed(items)
    ensures ScanEntries(items, domain) == Status(Preloaded) <==> exists i | 0 <= i < |items| :: items[i].name == Some(domain)
    ensures ScanEntries(items, domain) == Status(NotPreloaded) <==> forall i | 0 <= i < |items| :: items[i].name != Some(domain)
  {
    ScanStops(items, domain);
    var n := StopAt(items, domain);
    if n < |items| {
      assert items[n].name == Some(domain);
    }
  }

  /**
   `check_in_preload_list`: "unknown" without a list, "not_preloaded" when the
   document has no "entries" key, otherwise the loop; the two `get` calls and
   the iteration raise on values of the wrong type.
   */
  function CheckInPreloadList(data: Option<PreloadData>, domain: string): (r: Lookup)
    ensures r == Status(Unknown) <==> data.None?
    ensures data == Some(Document(Absent)) ==> r == Status(NotPreloaded)
    ensures r == Status(Preloaded)
            ==> && data.Some? && data.value.Document? && data.value.entries.Items?
                && exists i | 0 <= i < |data.value.entries.items| :: Names(data.value.entries.items[i], domain)
  {
    match data
    case None => Status(Unknown)
    case Some(NonDocument(t)) => Raised(NoAttributeGet(t))
    case Some(Document(Absent)) => Status(NotPreloaded)
    case Some(Document(NonIterable(t))) => Raised(NotIterable(t))
    case Some(Document(Items(items))) =>
      ScanStops(items, domain);
      ScanEntries(items, domain)
  }

  /** The exceptions the lookup can raise come from a document of the wrong shape, never from a list of records. */
  lemma LookupRaisesOnlyOnMalformed(data: Option<PreloadData>, domain: string)
    ensures CheckInPreloadList(data, domain).Raised?
            <==> && data.Some?
                 && (|| data.value.NonDocument?
                     || data.value.entries.NonIterable?
                     || (data.value.entries.Items? && StopAt(data.value.entries.items, domain) < |data.value.entries.items|
                         && data.value.entries.items[StopAt(data.value.entries.items, domain)].NonRecord?))
    ensures data.Some? && data.value.Document? && data.value.entries.Items? && WellFormed(data.value.entries.items)
            ==> CheckInPreloadList(data, domain).Status?
  {
    if data.Some? && data.value.Document? && data.value.entries.Items? {
      ScanStops(data.value.entries.items, domain);
    }
  }

  // ---------------------------------------------------------------------------
  // Eligibility and get_preload_info
  // ---------------------------------------------------------------------------

  /** The eligibility test of `get_preload_info`. */
  function Eligible(h: HstsResult): (b: bool)
    ensures Consistent(h)
            ==> (b <==> && h.present && h.ok && h.includeSubdomains && h.preload
                        && h.maxAge.Some? && h.maxAge.value >= MinPreloadMaxAge)
  {
    && h.present
    && h.maxAge.Some?
    && h.maxAge.value >= MinPreloadMaxAge
    && h.includeSubdomains
    && h.preload
    && |h.issues| == 0
  }

  /** An eligible result is one the validator calls ok. */
  lemma EligibleIsOk(raw: Option<string>)
    requires Eligible(ValidateHsts(raw))
    ensures ValidateHsts(raw).ok
  {
  }

  /**
   A header is eligible exactly when it sets a max-age of at least one year and
   both flags, and none of its max-age segments fails to parse.
   */
  lemma EligibleHeader(h: string)
    requires h != ""
    ensures Eligible(ValidateHsts(Some(h)))
            <==> && ValidateHsts(Some(h)).maxAge.Some?
                 && ValidateHsts(Some(h)).maxAge.value >= MinPreloadMaxAge
                 && ValidateHsts(Some(h)).includeSubdomains
                 && ValidateHsts(Some(h)).preload
                 && |InvalidSegments(Directives(h))| == 0
  {
    RunIssues(Directives(h));
  }

  /** One year is the boundary: a year passes, a second less does not. */
  lemma EligibilityBoundary()
    ensures Eligible(HstsResult(true, Some(MinPreloadMaxAge), true, true, [], true))
    ensures !Eligible(HstsResult(true, Some(MinPreloadMaxAge - 1), true, true, [], true))
  {
  }

  /** The second value `get_preload_info` returns. */
  datatype PreloadInfo = PreloadInfo(status: PreloadStatus, eligible: bool)

  datatype PreloadReport = PreloadReport(hsts: HstsResult, info: PreloadInfo)

  /** The result recorded when the domain itself cannot be reached. */
  const ConnectionFallback := HstsResult(false, None, false, false, [ConnectionError], false)

  /**
   `get_preload_info`: fetch `https://<domain>`, validate its header, look the
   domain up in `list` and judge eligibility. A failed fetch returns the
   fallback before the list is consulted; an exception from the lookup
   propagates, and is the `Failure` case.
   */
  function GetPreloadInfo(domain: string, get: string -> Fetch, list: Option<PreloadData>): (r: Result<PreloadReport, string>)
    ensures get("https://" + domain).FetchError?
            ==> r == Success(PreloadReport(ConnectionFallback, PreloadInfo(Unknown, false)))
    ensures r.Failure? ==> && get("https://" + domain).Fetched?
                           && CheckInPreloadList(list, domain).Raised?
                           && r.error == CheckInPreloadList(list, domain).message
    ensures r.Success? ==> Consistent(r.value.hsts)
    ensures r.Success? && r.value.info.eligible ==> r.value.hsts.ok && r.value.hsts.maxAge.Some? && r.value.hsts.maxAge.value >= MinPreloadMaxAge
    ensures r.Success? && list.None? ==> r.value.info.status == Unknown
    ensures get("https://" + domain).Fetched?
            ==> (r.Failure? <==> CheckInPreloadList(list, domain).Raised?)
    ensures get("https://" + domain).Fetched? && r.Success?
            ==> && r.value.hsts == ValidateHsts(get("https://" + domain).response.sts)
                && r.value.info.status == CheckInPreloadList(list, domain).status
                && (r.value.info.eligible
                    <==> && r.value.hsts.present
                         && r.value.hsts.maxAge.Some? && r.value.hsts.maxAge.value >= MinPreloadMaxAge
                         && r.value.hsts.includeSubdomains && r.value.hsts.preload
                         && |r.value.hsts.issues| == 0)
  {
    match get("https://" + domain)
    case FetchError(_) => Success(PreloadReport(ConnectionFallback, PreloadInfo(Unknown, false)))
    case Fetched(resp) =>
      var hsts := ValidateHsts(resp.sts);
      match CheckInPreloadList(list, domain)
      case Raised(m) => Failure(m)
      case Status(s) => Success(PreloadReport(hsts, PreloadInfo(s, Eligible(hsts))))
  }

  /** The reported status is "unknown" exactly when the domain or the list could not be fetched. */
  lemma UnknownStatus(domain: string, get: string -> Fetch, list: Option<PreloadData>)
    requires GetPreloadInfo(domain, get, list).Success?
    ensures GetPreloadInfo(domain, get, list).value.info.status == Unknown
            <==> get("https://" + domain).FetchError? || list.None?
  {
  }

  /** The header verdict does not depend on the list, and eligibility does not depend on membership. */
  lemma HeaderIndependentOfList(domain: string, get: string -> Fetch, a: Option<PreloadData>, b: Option<PreloadData>)
    requires GetPreloadInfo(domain, get, a).Success? && GetPreloadInfo(domain, get, b).Success?
    ensures GetPreloadInfo(domain, get, a).value.hsts == GetPreloadInfo(domain, get, b).value.hsts
    ensures GetPreloadInfo(domain, get, a).value.info.eligible == GetPreloadInfo(domain, get, b).value.info.eligible
  {
  }
}

=== FILE: pytext.dfy ===
/**
 The Python `str` operations the tool relies on, as functions over `seq<char>`:
 `isspace`, `strip()`, `split(sep)`, `lower()`, `startswith`, the `in` substring
 test and `int()` on decimal text.
 */
module PyText {
  import opened Wrappers

  // ---------------------------------------------------------------------------
  // Whitespace and strip()
  // ---------------------------------------------------------------------------

  /** The characters `str.isspace()` accepts, which `str.strip()` removes. */
  predicate IsSpace(c: char) {
    var n := c as int;
    (9 <= n <= 13) || (0x1C <= n <= 0x20) || n == 0x85 || n == 0xA0 || n == 0x1680
    || (0x2000 <= n <= 0x200A) || n == 0x2028 || n == 0x2029 || n == 0x202F
    || n == 0x205F || n == 0x3000
  }

  predicate AllSpace(s: string) {
    forall k | 0 <= k < |s| :: IsSpace(s[k])
  }

  /** Neither end of `s` is whitespace: what `strip()` leaves behind. */
  predicate IsStripped(s: string) {
    |s| == 0 || (!IsSpace(s[0]) && !IsSpace(s[|s| - 1]))
  }

  /** The number of whitespace characters `s` starts with. */
  function LeadingSpaces(s: string): (n: nat)
    ensures n <= |s|
    ensures forall k | 0 <= k < n :: IsSpace(s[k])
    ensures n < |s| ==> !IsSpace(s[n])
  {
    if |s| > 0 && IsSpace(s[0]) then 1 + LeadingSpaces(s[1..]) else 0
  }

  /** The number of whitespace characters `s` ends with. */
  function TrailingSpaces(s: string): (n: nat)
    ensures n <= |s|
    ensures forall k | |s| - n <= k < |s| :: IsSpace(s[k])
    ensures n < |s| ==> !IsSpace(s[|s| - n - 1])
  {
    if |s| > 0 && IsSpace(s[|s| - 1]) then 1 + TrailingSpaces(s[..|s| - 1]) else 0
  }

  /** `s.strip()`: `s` without its leading and trailing whitespace. */
  function Strip(s: string): (r: string)
    ensures IsStripped(r)
    ensures |r| <= |s|
  {
    var t := s[LeadingSpaces(s)..];
    t[..|t| - TrailingSpaces(t)]
  }

  /** `strip()` only removes whitespace, and only at the two ends. */
  lemma StripIsSlice(s: string)
    ensures exists i | 0 <= i <= |s| - |Strip(s)| ::
              s[i..i + |Strip(s)|] == Strip(s) && AllSpace(s[..i]) && AllSpace(s[i + |Strip(s)|..])
  {
    var i := LeadingSpaces(s);
    var t := s[i..];
    var j := TrailingSpaces(t);
    var r := t[..|t| - j];
    assert r == Strip(s);
    assert s[i..i + |r|] == r;
    assert AllSpace(s[..i]) by {
      forall k | 0 <= k < i ensures IsSpace(s[..i][k]) {
        assert s[..i][k] == s[k];
      }
    }
    var after := s[i + |r|..];
    assert AllSpace(after) by {
      forall k | 0 <= k < |after| ensures IsSpace(after[k]) {
        assert after[k] == t[|t| - j + k];
      }
    }
  }

  /** `strip()` has exactly one answer: whatever whitespace surrounds a stripped core, it returns that core. */
  lemma StripUnique(a: string, b: string, c: string)
    requires AllSpace(a) && IsStripped(b) && AllSpace(c)
    ensures Strip(a + b + c) == b
  {
    var s := a + b + c;
    var i := LeadingSpaces(s);
    if |b| == 0 {
      assert s == a + c;
      assert AllSpace(s) by {
        forall k | 0 <= k < |s| ensures IsSpace(s[k]) {
          if k < |a| { assert s[k] == a[k]; } else { assert s[k] == c[k - |a|]; }
        }
      }
      assert i == |s|;
    } else {
      assert s[|a|] == b[0];
      assert i == |a|;
      var t := s[i..];
      assert t == b + c;
      var j := TrailingSpaces(t);
      assert t[|b| - 1] == b[|b| - 1];
      assert j == |c|;
      assert t[..|t| - j] == b;
    }
  }

  /** Stripping already-stripped text changes nothing, so `strip()` is idempotent. */
  lemma StripStripped(s: string)
    requires IsStripped(s)
    ensures Strip(s) == s
  {
    StripUnique([], s, []);
    assert [] + s + [] == s;
  }

  /** Whatever `strip()` keeps was already in the text. */
  lemma StripKeeps(s: string, c: char)
    requires c !in s
    ensures c !in Strip(s)
  {
    var i := LeadingSpaces(s);
    var t := s[i..];
    var r := Strip(s);
    assert r == t[..|t| - TrailingSpaces(t)];
    forall k | 0 <= k < |r| ensures r[k] != c {
      assert r[k] == s[i + k];
    }
  }

  // ---------------------------------------------------------------------------
  // split(sep) and its inverse join
  // ---------------------------------------------------------------------------

  /** `s.split(sep)` for a one-character separator: always at least one piece, pieces free of `sep`. */
  function Split(s: string, sep: char): (parts: seq<string>)
    ensures |parts| >= 1
    ensures forall k | 0 <= k < |parts| :: sep !in parts[k]
  {
    if |s| == 0 then [""]
    else
      var rest := Split(s[1..], sep);
      if s[0] == sep then [""] + rest
      else [[s[0]] + rest[0]] + rest[1..]
  }

  /** `sep.join(parts)`. */
  function Join(parts: seq<string>, sep: char): string
    requires |parts| >= 1
  {
    if |parts| == 1 then parts[0] else parts[0] + [sep] + Join(parts[1..], sep)
  }

  /** Joining the pieces of a split gives the original text back. */
  lemma {:induction false} JoinSplit(s: string, sep: char)
    ensures Join(Split(s, sep), sep) == s
  {
    if |s| > 0 {
      var rest := Split(s[1..], sep);
      JoinSplit(s[1..], sep);
      if s[0] == sep {
        assert Split(s, sep)[1..] == rest;
      } else {
        var parts := Split(s, sep);
        if |rest| == 1 {
          assert parts == [[s[0]] + rest[0]];
        } else {
          assert parts[1..] == rest[1..];
          assert Join(rest, sep) == rest[0] + [sep] + Join(rest[1..], sep);
        }
      }
      assert s == [s[0]] + s[1..];
    }
  }

  /** A text without the separator is a single piece. */
  lemma {:induction false} SplitNoSep(w: string, sep: char)
    requires sep !in w
    ensures Split(w, sep) == [w]
  {
    if |w| > 0 {
      assert sep !in w[1..];
      SplitNoSep(w[1..], sep);
      assert [w[0]] + w[1..] == w;
    }
  }

  /** The first separator ends the first piece. */
  lemma {:induction false} SplitAfterPiece(w: string, sep: char, t: string)
    requires sep !in w
    ensures Split(w + [sep] + t, sep) == [w] + Split(t, sep)
  {
    var s := w + [sep] + t;
    if |w| == 0 {
      assert s[1..] == t;
    } else {
      assert s[1..] == w[1..] + [sep] + t;
      assert sep !in w[1..];
      SplitAfterPiece(w[1..], sep, t);
      assert [w[0]] + w[1..] == w;
    }
  }

  /** Splitting joined pieces that do not contain the separator gives the pieces back. */
  lemma {:induction false} SplitJoin(parts: seq<string>, sep: char)
    requires |parts| >= 1
    requires forall k | 0 <= k < |parts| :: sep !in parts[k]
    ensures Split(Join(parts, sep), sep) == parts
  {
    if |parts| == 1 {
      SplitNoSep(parts[0], sep);
    } else {
      SplitJoin(parts[1..], sep);
      SplitAfterPiece(parts[0], sep, Join(parts[1..], sep));
      assert [parts[0]] + parts[1..] == parts;
    }
  }

  /** Appending a separator and a separator-free tail adds exactly one last piece. */
  lemma {:induction false} SplitAppend(s: string, sep: char, tail: string)
    requires sep !in tail
    ensures Split(s + [sep] + tail, sep) == Split(s, sep) + [tail]
  {
    JoinSplit(s, sep);
    var ps := Split(s, sep);
    var qs := ps + [tail];
    assert Join(qs, sep) == s + [sep] + tail by {
      JoinSnoc(ps, sep, tail);
    }
    SplitJoin(qs, sep);
  }

  lemma {:induction false} JoinSnoc(ps: seq<string>, sep: char, tail: string)
    requires |ps| >= 1
    ensures Join(ps + [tail], sep) == Join(ps, sep) + [sep] + tail
  {
    if |ps| > 1 {
      assert (ps + [tail])[1..] == ps[1..] + [tail];
      JoinSnoc(ps[1..], sep, tail);
    }
  }

  // ---------------------------------------------------------------------------
  // lower(), startswith, `in`
  // ---------------------------------------------------------------------------

  predicate IsUpper(c: char) {
    'A' <= c <= 'Z'
  }

  function LowerChar(c: char): char {
    if IsUpper(c) then (c as int + 32) as char else c
  }

  /** `s.lower()` on the ASCII letters; every other character is kept. */
  function Lower(s: string): (r: string)
    ensures |r| == |s|
    ensures forall k | 0 <= k < |r| :: !IsUpper(r[k])
    ensures forall k | 0 <= k < |s| :: r[k] == s[k] || (IsUpper(s[k]) && r[k] as int == s[k] as int + 32)
  {
    if |s| == 0 then [] else [LowerChar(s[0])] + Lower(s[1..])
  }

  /** Lowering twice is lowering once. */
  lemma LowerIdempotent(s: string)
    ensures Lower(Lower(s)) == Lower(s)
  {
    var l := Lower(s);
    var ll := Lower(l);
    assert forall k | 0 <= k < |l| :: ll[k] == l[k];
  }

  /** `a.lower() == b.lower()` read letter by letter: the two texts agree up to ASCII letter case. */
  predicate EqualsIgnoringCase(a: string, b: string) {
    |a| == |b| && forall k | 0 <= k < |a| :: LowerChar(a[k]) == LowerChar(b[k])
  }

  /** Comparing the lowered text with a lower-case word is comparing up to letter case. */
  lemma LowerMatches(p: string, w: string)
    requires forall k | 0 <= k < |w| :: !IsUpper(w[k])
    ensures Lower(p) == w <==> EqualsIgnoringCase(p, w)
  {
    var l := Lower(p);
    assert forall k | 0 <= k < |p| :: l[k] == LowerChar(p[k]);
    assert forall k | 0 <= k < |w| :: LowerChar(w[k]) == w[k];
    if EqualsIgnoringCase(p, w) {
      assert forall k | 0 <= k < |w| :: l[k] == w[k];
    }
  }

  /** Text without upper-case letters is its own lower-case form. */
  lemma LowerNoUpper(s: string)
    requires forall k | 0 <= k < |s| :: !IsUpper(s[k])
    ensures Lower(s) == s
  {
  }

  /** `s.startswith(prefix)`. */
  predicate StartsWith(s: string, prefix: string) {
    |prefix| <= |s| && s[..|prefix|] == prefix
  }

  /** `t in s` for strings: `t` occurs in `s` at some position. */
  predicate Contains(s: string, t: string)
    decreases |s|
  {
    StartsWith(s, t) || (|s| > 0 && Contains(s[1..], t))
  }

  // ---------------------------------------------------------------------------
  // int() on decimal text, and its inverse str()
  // ---------------------------------------------------------------------------

  predicate IsDigit(c: char) {
    '0' <= c <= '9'
  }

  predicate AllDigits(s: string) {
    forall k | 0 <= k < |s| :: IsDigit(s[k])
  }

  /** The value of a run of ASCII decimal digits, most significant first. */
  function DigitsValue(ds: string): nat
    requires AllDigits(ds)
  {
    if |ds| == 0 then 0
    else DigitsValue(ds[..|ds| - 1]) * 10 + (ds[|ds| - 1] as int - '0' as int)
  }

  /** The four information separators U+001C..U+001F: `isspace()` accepts them, `int()` does not skip them. */
  predicate IsSeparator(c: char) {
    0x1C <= c as int <= 0x1F
  }

  /** The whitespace `int()` skips around a number: `isspace()` less the four separators. */
  predicate IsIntSpace(c: char) {
    IsSpace(c) && !IsSeparator(c)
  }

  predicate AllIntSpace(s: string) {
    forall k | 0 <= k < |s| :: IsIntSpace(s[k])
  }

  /** Some character of `s` is a separator; first to last, so that callers need no quantifier. */
  predicate HasSeparator(s: string) {
    |s| > 0 && (IsSeparator(s[0]) || HasSeparator(s[1..]))
  }

  lemma {:induction false} HasSeparatorIff(s: string)
    ensures HasSeparator(s) <==> exists k | 0 <= k < |s| :: IsSeparator(s[k])
  {
    if |s| > 0 {
      HasSeparatorIff(s[1..]);
      if HasSeparator(s[1..]) {
        var k :| 0 <= k < |s| - 1 && IsSeparator(s[1..][k]);
        assert IsSeparator(s[k + 1]);
      }
      if exists k | 0 <= k < |s| :: IsSeparator(s[k]) {
        var k :| 0 <= k < |s| && IsSeparator(s[k]);
        if k > 0 { assert s[1..][k - 1] == s[k]; }
      }
    }
  }

  /** An optional sign followed by at least one ASCII digit, the text `int()` accepts once trimmed. */
  function ParseSigned(t: string): Option<int> {
    var negative := |t| > 0 && t[0] == '-';
    var digits := if |t| > 0 && (t[0] == '+' || t[0] == '-') then t[1..] else t;
    if |digits| > 0 && AllDigits(digits) then
      var magnitude: int := DigitsValue(digits);
      Some(if negative then -magnitude else magnitude)
    else
      None
  }

  /**
   `int(s)` for text: surrounding whitespace, an optional sign, then at least one
   ASCII digit. Anything else is the ValueError `int()` raises, here `None`.
   `int()` skips less whitespace than `strip()`: a separator U+001C..U+001F
   anywhere in the text makes it fail, since at either end it is not skipped
   and inside it is no digit. Without separators both skip the same characters.
   */
  function ParseInt(s: string): (v: Option<int>)
    ensures v.Some? ==> var t := Strip(s);
                        && |t| >= 1
                        && (IsDigit(t[0]) || t[0] == '+' || t[0] == '-')
                        && AllDigits(t[1..])
                        && IsDigit(t[|t| - 1])
    ensures HasSeparator(s) ==> v.None?
    ensures !HasSeparator(s) && |Strip(s)| >= 1 && AllDigits(Strip(s)) ==> v.Some? && v.value >= 0
    ensures v.Some? && v.value < 0 ==> Strip(s)[0] == '-'
  {
    var t := Strip(s);
    assert |t| >= 1 ==> forall k | 1 <= k < |t| :: t[k] == t[1..][k - 1];
    if HasSeparator(s) then None else ParseSigned(t)
  }

  /** `int("\x1c5")` raises although `"\x1c5".strip()` is "5". */
  lemma SeparatorNotSkipped()
    ensures Strip([28 as char, '5']) == "5"
    ensures ParseInt([28 as char, '5']).None?
  {
    StripUnique([28 as char], "5", []);
    assert [28 as char] + "5" + [] == [28 as char, '5'];
  }

  /**
   What `int()` makes of digits with a sign or without one: "31536000",
   "+31536000" and "-5" all read as the digits' value, negated after '-'.
   */
  lemma ParseDigits(ds: string)
    requires |ds| >= 1 && AllDigits(ds)
    ensures ParseInt(ds) == Some(DigitsValue(ds))
    ensures ParseInt("+" + ds) == Some(DigitsValue(ds))
    ensures ParseInt("-" + ds) == Some(-(DigitsValue(ds) as int))
  {
    ParseUnsigned(ds);
    ParseSignDigits('+', ds);
    ParseSignDigits('-', ds);
  }

  lemma ParseUnsigned(ds: string)
    requires |ds| >= 1 && AllDigits(ds)
    ensures ParseInt(ds) == Some(DigitsValue(ds))
  {
    assert IsDigit(ds[0]) && IsDigit(ds[|ds| - 1]);
    DigitsTail(ds);
    SignedNoSeparator(ds);
    StripStripped(ds);
  }

  lemma DigitsTail(ds: string)
    requires |ds| >= 1 && AllDigits(ds)
    ensures IsDigit(ds[0]) && AllDigits(ds[1..])
  {
    forall k | 0 <= k < |ds| - 1 ensures IsDigit(ds[1..][k]) {
      assert ds[1..][k] == ds[k + 1];
    }
  }

  /** A sign or digit followed by digits holds no separator. */
  lemma SignedNoSeparator(t: string)
    requires |t| >= 1 && (IsDigit(t[0]) || t[0] == '+' || t[0] == '-') && AllDigits(t[1..])
    ensures !HasSeparator(t)
  {
    HasSeparatorIff(t);
    forall k | 1 <= k < |t| ensures !IsSeparator(t[k]) {
      assert t[k] == t[1..][k - 1];
    }
  }

  /** One sign character before a run of digits. */
  lemma ParseSignDigits(sign: char, ds: string)
    requires sign == '+' || sign == '-'
    requires |ds| >= 1 && AllDigits(ds)
    ensures ParseInt([sign] + ds) == Some(if sign == '-' then -(DigitsValue(ds) as int) else DigitsValue(ds))
  {
    var t := [sign] + ds;
    assert t[|t| - 1] == ds[|ds| - 1];
    StripStripped(t);
    assert t[1..] == ds;
    SignedNoSeparator(t);
    SignedValue(t, ds);
  }

  lemma SignedValue(t: string, ds: string)
    requires |t| >= 1 && (t[0] == '+' || t[0] == '-') && t[1..] == ds
    requires |ds| >= 1 && AllDigits(ds)
    ensures ParseSigned(t) == Some(if t[0] == '-' then -(DigitsValue(ds) as int) else DigitsValue(ds))
  {
  }

  /** A leading zero adds nothing to a run of digits, so "007" reads as 7. */
  lemma {:induction false} LeadingZero(ds: string)
    requires AllDigits(ds)
    ensures AllDigits("0" + ds) && DigitsValue("0" + ds) == DigitsValue(ds)
  {
    var zs := "0" + ds;
    assert AllDigits(zs);
    if |ds| == 0 {
      assert zs[..0] == [];
    } else {
      var init := ds[..|ds| - 1];
      assert zs[..|zs| - 1] == "0" + init;
      LeadingZero(init);
    }
  }

  /** `int()` ignores leading zeros: "007" and "7" read alike. */
  lemma ParseLeadingZero(ds: string)
    requires |ds| >= 1 && AllDigits(ds)
    ensures ParseInt("0" + ds) == ParseInt(ds)
  {
    LeadingZero(ds);
    ParseUnsigned("0" + ds);
    ParseUnsigned(ds);
  }

  /** `str(n)` for a natural number: its decimal digits without leading zeros. */
  function ShowNat(n: nat): (s: string)
    ensures |s| >= 1 && AllDigits(s)
    ensures DigitsValue(s) == n
  {
    var last := ('0' as int + n % 10) as char;
    if n < 10 then
      assert [last][..0] == [];
      [last]
    else
      var prefix := ShowNat(n / 10);
      var s := prefix + [last];
      assert s[..|s| - 1] == prefix;
      s
  }

  /** `str(n)` for any integer. */
  function ShowInt(n: int): string {
    if n < 0 then "-" + ShowNat(-n) else ShowNat(n)
  }

  /** What `str()` writes is already trimmed. */
  lemma ShowIntStripped(n: int)
    ensures IsStripped(ShowInt(n))
  {
    var s := ShowInt(n);
    var ds := ShowNat(if n < 0 then -n else n);
    assert IsDigit(ds[0]) && IsDigit(ds[|ds| - 1]);
    assert s[|s| - 1] == ds[|ds| - 1];
  }

  /** `int(str(n)) == n`: the parser reads back every integer the printer writes. */
  lemma ParseShowInt(n: int)
    ensures ParseInt(ShowInt(n)) == Some(n)
  {
    ShowIntStripped(n);
    StripStripped(ShowInt(n));
    var ds := ShowNat(if n < 0 then -n else n);
    if n < 0 {
      assert ShowInt(n)[1..] == ds;
    } else {
      DigitsTail(ds);
    }
    SignedNoSeparator(ShowInt(n));
  }

  /** The whitespace `int()` skips around the digits does not change what it reads. */
  lemma ParseIntPadded(a: string, s: string, c: string)
    requires AllIntSpace(a) && IsStripped(s) && AllIntSpace(c)
    ensures ParseInt(a + s + c) == ParseInt(s)
  {
    var t := a + s + c;
    assert AllSpace(a) && AllSpace(c);
    StripUnique(a, s, c);
    StripStripped(s);
    HasSeparatorIff(t);
    HasSeparatorIff(s);
    assert HasSeparator(t) <==> HasSeparator(s) by {
      if HasSeparator(t) {
        var k :| 0 <= k < |t| && IsSeparator(t[k]);
        assert |a| <= k < |a| + |s| && t[k] == s[k - |a|];
      }
      if HasSeparator(s) {
        var k :| 0 <= k < |s| && IsSeparator(s[k]);
        assert t[|a| + k] == s[k];
      }
    }
  }
}

=== FILE: redirects.dfy ===
/**
 The redirect probe (redirects.py): two plain-HTTP start URLs, each followed to
 its final response, and one record per scenario.
 */
module Redirects {
  import opened Wrappers
  import opened PyText
  import opened Http

  /** One intermediate response: `(status_code, url)`. */
  datatype Hop = Hop(statusCode: int, url: string)

  /** What `_follow` returns: the final URL, the final status and the hops before it. */
  datatype Followed = Followed(finalUrl: string, status: int, history: seq<Hop>)

  /** `_follow` on the response the client produced after following redirects. */
  function Follow(resp: Response): (f: Followed)
    ensures f.finalUrl == resp.url && f.status == resp.statusCode
    ensures |f.history| == |resp.history|
    ensures forall i | 0 <= i < |resp.history| ::
              f.history[i] == Hop(resp.history[i].statusCode, resp.history[i].url)
  {
    Followed(resp.url, resp.statusCode, Hops(resp.history))
  }

  /** The loop of `_follow`, one hop per intermediate response, earliest first. */
  function Hops(history: seq<Response>): (hs: seq<Hop>)
    ensures |hs| == |history|
    ensures forall i | 0 <= i < |history| :: hs[i] == Hop(history[i].statusCode, history[i].url)
  {
    if |history| == 0 then []
    else Hops(history[..|history| - 1]) + [Hop(history[|history| - 1].statusCode, history[|history| - 1].url)]
  }

  /** Hops of consecutive stretches of history concatenate. */
  lemma HopsAppend(a: seq<Response>, b: seq<Response>)
    ensures Hops(a + b) == Hops(a) + Hops(b)
  {
    var ab := a + b;
    var lhs := Hops(ab);
    var left := Hops(a);
    var right := Hops(b);
    var rhs := left + right;
    assert |lhs| == |rhs|;
    forall i | 0 <= i < |lhs| ensures lhs[i] == rhs[i] {
      if i < |a| {
        assert ab[i] == a[i];
        assert rhs[i] == left[i];
      } else {
        assert ab[i] == b[i - |a|];
        assert rhs[i] == right[i - |a|];
      }
    }
    assert lhs == rhs;
  }

  /** The record of one scenario. */
  datatype RedirectRecord = RedirectRecord(
    start: string,
    finalUrl: Option<string>,
    status: Option<int>,
    history: seq<Hop>,
    httpsEnforced: bool,
    error: Option<string>)

  /** One pass of the loop: the record for `url`, from the outcome of fetching it. */
  function ScenarioRecord(url: string, f: Fetch): (r: RedirectRecord)
    ensures r.start == url
    ensures r.error.None? <==> f.Fetched?
    ensures r.httpsEnforced <==> f.Fetched? && StartsWith(f.response.url, "https://")
    ensures f.Fetched? ==> r.finalUrl == Some(f.response.url) && r.status == Some(f.response.statusCode)
    ensures f.Fetched? ==> r.history == Hops(f.response.history)
    ensures f.FetchError? ==> r == RedirectRecord(url, None, None, [], false, Some(f.message))
  {
    match f
    case Fetched(resp) =>
      var followed := Follow(resp);
      RedirectRecord(url, Some(followed.finalUrl), Some(followed.status), followed.history,
                     StartsWith(followed.finalUrl, "https://"), None)
    case FetchError(m) =>
      RedirectRecord(url, None, None, [], false, Some(m))
  }

  /** Exactly one of `final_url` and `error` is set, and HTTPS can only be enforced when the probe got through. */
  lemma RecordShape(url: string, f: Fetch)
    ensures var r := ScenarioRecord(url, f);
            && (r.finalUrl.Some? <==> r.error.None?)
            && (r.status.Some? <==> r.error.None?)
            && (r.httpsEnforced ==> r.error.None? && StartsWith(r.finalUrl.value, "https://"))
            && (r.error.Some? ==> |r.history| == 0)
  {
  }

  const RootScenario := "http_root"
  const WwwScenario := "http_www"

  /** The start URL of each scenario. */
  function ScenarioUrls(domain: string): map<string, string> {
    map[RootScenario := "http://" + domain + "/", WwwScenario := "http://www." + domain + "/"]
  }

  /** `check_redirect_scenarios`: a record per scenario, each from the fetch of its own start URL. */
  function CheckRedirectScenarios(domain: string, get: string -> Fetch): (m: map<string, RedirectRecord>)
    ensures m.Keys == {RootScenario, WwwScenario}
    ensures m[RootScenario].start == "http://" + domain + "/"
    ensures m[WwwScenario].start == "http://www." + domain + "/"
    ensures forall name | name in m :: m[name] == ScenarioRecord(m[name].start, get(m[name].start))
  {
    var urls := ScenarioUrls(domain);
    assert RootScenario != WwwScenario;
    map name | name in urls :: ScenarioRecord(urls[name], get(urls[name]))
  }

  /**
   The scenarios do not interfere: a scenario's record depends only on what
   fetching its own start URL gives, so one scenario failing leaves the other's
   record as it was.
   */
  lemma ScenariosIndependent(domain: string, get1: string -> Fetch, get2: string -> Fetch, name: string)
    requires name in {RootScenario, WwwScenario}
    requires get1(ScenarioUrls(domain)[name]) == get2(ScenarioUrls(domain)[name])
    ensures CheckRedirectScenarios(domain, get1)[name] == CheckRedirectScenarios(domain, get2)[name]
  {
  }

  /** The two start URLs differ, so the two scenarios are two distinct probes. */
  lemma ScenarioUrlsDistinct(domain: string)
    ensures ScenarioUrls(domain)[RootScenario] != ScenarioUrls(domain)[WwwScenario]
  {
    assert |ScenarioUrls(domain)[RootScenario]| == |domain| + 8;
    assert |ScenarioUrls(domain)[WwwScenario]| == |domain| + 12;
  }
}

=== FILE: scan.dfy ===
/** The multi-path probe (scan.py): one HTTPS fetch per path, in the order given. */
module PathScan {
  import opened Wrappers
  import opened PyText
  import opened Http
  import opened Parser

  /** The second element of a result pair: the header verdict, or the text `error: <message>`. */
  datatype PathOutcome = Validated(result: HstsResult) | ErrorText(text: string)

  datatype PathEntry = PathEntry(path: string, outcome: PathOutcome)

  /** The URL a path is probed at: the path is appended to the domain as it stands. */
  function PathUrl(domain: string, path: string): string {
    "https://" + domain + path
  }

  /** One pass of the loop. */
  function ProbePath(domain: string, path: string, get: string -> Fetch): (e: PathEntry)
    ensures e.path == path
    ensures e.outcome.ErrorText? <==> get(PathUrl(domain, path)).FetchError?
    ensures e.outcome.ErrorText? ==> StartsWith(e.outcome.text, "error: ")
    ensures e.outcome.ErrorText? ==> e.outcome.text[|"error: "|..] == get(PathUrl(domain, path)).message
    ensures e.outcome.Validated? ==> e.outcome.result == ValidateHsts(get(PathUrl(domain, path)).response.sts)
  {
    match get(PathUrl(domain, path))
    case Fetched(resp) => PathEntry(path, Validated(ValidateHsts(resp.sts)))
    case FetchError(m) =>
      var text := "error: " + m;
      assert text[..7] == "error: ";
      PathEntry(path, ErrorText(text))
  }

  /** `scan_paths`: one entry per path, in order, each probed on its own. */
  function ScanPaths(domain: string, paths: seq<string>, get: string -> Fetch): (r: seq<PathEntry>)
    ensures |r| == |paths|
    ensures forall i | 0 <= i < |paths| :: r[i] == ProbePath(domain, paths[i], get)
  {
    if |paths| == 0 then []
    else ScanPaths(domain, paths[..|paths| - 1], get) + [ProbePath(domain, paths[|paths| - 1], get)]
  }

  /** Scanning two lists of paths one after the other is scanning their concatenation. */
  lemma ScanPathsAppend(domain: string, a: seq<string>, b: seq<string>, get: string -> Fetch)
    ensures ScanPaths(domain, a + b, get) == ScanPaths(domain, a, get) + ScanPaths(domain, b, get)
  {
    var ab := a + b;
    var lhs := ScanPaths(domain, ab, get);
    var left := ScanPaths(domain, a, get);
    var right := ScanPaths(domain, b, get);
    var rhs := left + right;
    assert |lhs| == |rhs|;
    forall i | 0 <= i < |lhs| ensures lhs[i] == rhs[i] {
      assert lhs[i] == ProbePath(domain, ab[i], get);
      if i < |a| {
        assert ab[i] == a[i];
        assert rhs[i] == left[i];
      } else {
        assert ab[i] == b[i - |a|];
        assert rhs[i] == right[i - |a|];
      }
    }
    assert lhs == rhs;
  }

  /** The entries' paths are the input paths, in order. */
  lemma PathsKept(domain: string, paths: seq<string>, get: string -> Fetch)
    ensures var r := ScanPaths(domain, paths, get);
            seq(|r|, i requires 0 <= i < |r| => r[i].path) == paths
  {
  }

  /** The path is glued to the domain with no separator: "/login" on "example.com" is probed at "https://example.com/login". */
  lemma NoSeparatorInserted(domain: string, path: string)
    ensures |PathUrl(domain, path)| == 8 + |domain| + |path|
    ensures PathUrl(domain, path)[8 + |domain|..] == path
    ensures PathUrl(domain, path)[8..8 + |domain|] == domain
  {
  }
}

=== FILE: subdomains.dfy ===
/**
 The subdomain probe (subdomains.py): a fixed list of labels, each host first
 resolved, then fetched over HTTPS only when it resolves.
 */
module Subdomains {
  import opened Wrappers
  import opened PyText
  import opened Http
  import opened Parser

  /** `COMMON_SUBS`, in the order the hosts are probed. */
  const CommonSubs: seq<string> := ["www", "api", "m", "dev", "static", "cdn"]

  datatype SubStatus = NoDns | Https | SubError

  /** The status string stored in a result tuple. */
  function StatusName(s: SubStatus): string {
    match s
    case NoDns => "no_dns"
    case Https => "https"
    case SubError => "error"
  }

  /** The third element of a result tuple: `None`, the header verdict, or `str(e)`. */
  datatype SubDetail = NoDetail | Hsts(result: HstsResult) | Message(text: string)

  /** `(host, status, detail)`. */
  datatype SubEntry = SubEntry(host: string, status: SubStatus, detail: SubDetail)

  function HostOf(sub: string, domain: string): string {
    sub + "." + domain
  }

  /** One pass of the loop: resolve, and fetch `https://<host>` only when that succeeds. */
  function ProbeHost(host: string, get: string -> Fetch, resolve: string -> bool): (e: SubEntry)
    ensures e.host == host
    ensures e.status == NoDns <==> !resolve(host)
    ensures e.status == NoDns ==> e.detail == NoDetail
    ensures e.status == Https <==> resolve(host) && get("https://" + host).Fetched?
    ensures e.status == Https ==> e.detail == Hsts(ValidateHsts(get("https://" + host).response.sts))
    ensures e.status == SubError ==> e.detail == Message(get("https://" + host).message)
  {
    if !resolve(host) then SubEntry(host, NoDns, NoDetail)
    else match get("https://" + host)
      case Fetched(resp) => SubEntry(host, Https, Hsts(ValidateHsts(resp.sts)))
      case FetchError(m) => SubEntry(host, SubError, Message(m))
  }

  /** The loop over `labels`, one entry per label, in order. */
  function ProbeAll(labels: seq<string>, domain: string, get: string -> Fetch, resolve: string -> bool): (r: seq<SubEntry>)
    ensures |r| == |labels|
    ensures forall i | 0 <= i < |labels| :: r[i] == ProbeHost(HostOf(labels[i], domain), get, resolve)
  {
    if |labels| == 0 then []
    else ProbeAll(labels[..|labels| - 1], domain, get, resolve)
         + [ProbeHost(HostOf(labels[|labels| - 1], domain), get, resolve)]
  }

  /** `check_subdomains`. */
  function CheckSubdomains(domain: string, get: string -> Fetch, resolve: string -> bool): (r: seq<SubEntry>)
    ensures |r| == |CommonSubs|
    ensures forall i | 0 <= i < |CommonSubs| :: r[i].host == CommonSubs[i] + "." + domain
    ensures forall i | 0 <= i < |CommonSubs| :: r[i].status == NoDns <==> !resolve(r[i].host)
    ensures forall i | 0 <= i < |CommonSubs| :: r[i] == ProbeHost(HostOf(CommonSubs[i], domain), get, resolve)
  {
    ProbeAll(CommonSubs, domain, get, resolve)
  }

  /** A host that does not resolve is never fetched: its entry is the same whatever the network answers. */
  lemma UnresolvedNotFetched(domain: string, get1: string -> Fetch, get2: string -> Fetch, resolve: string -> bool, i: nat)
    requires i < |CommonSubs| && !resolve(HostOf(CommonSubs[i], domain))
    ensures CheckSubdomains(domain, get1, resolve)[i] == CheckSubdomains(domain, get2, resolve)[i]
            == SubEntry(HostOf(CommonSubs[i], domain), NoDns, NoDetail)
  {
  }

  /** The probe over a longer list of labels extends the probe over its prefix. */
  lemma ProbeAllAppend(a: seq<string>, b: seq<string>, domain: string, get: string -> Fetch, resolve: string -> bool)
    ensures ProbeAll(a + b, domain, get, resolve) == ProbeAll(a, domain, get, resolve) + ProbeAll(b, domain, get, resolve)
  {
    var ab := a + b;
    var lhs := ProbeAll(ab, domain, get, resolve);
    var left := ProbeAll(a, domain, get, resolve);
    var right := ProbeAll(b, domain, get, resolve);
    var rhs := left + right;
    assert |lhs| == |rhs|;
    forall i | 0 <= i < |lhs| ensures lhs[i] == rhs[i] {
      assert lhs[i] == ProbeHost(HostOf(ab[i], domain), get, resolve);
      if i < |a| {
        assert ab[i] == a[i];
        assert rhs[i] == left[i];
      } else {
        assert ab[i] == b[i - |a|];
        assert rhs[i] == right[i - |a|];
      }
    }
    assert lhs == rhs;
  }

  /** A text that contains `t` contains its first character. */
  lemma {:induction false} ContainsFirst(s: string, t: string)
    requires |t| > 0 && Contains(s, t)
    ensures t[0] in s
  {
    if !StartsWith(s, t) {
      ContainsFirst(s[1..], t);
    } else {
      assert s[0] == t[0];
    }
  }

  /** "no_dns" and "https" have no 'e', so they cannot contain `error`. */
  lemma NoErrorIn(s: string)
    requires s == "no_dns" || s == "https"
    ensures !Contains(s, "error")
  {
    if Contains(s, "error") {
      ContainsFirst(s, "error");
    }
  }

  /** `"error" in str(status).lower()`, the audit's test, is exactly the test for the error status. */
  lemma ErrorWordIff(s: SubStatus)
    ensures Contains(Lower(StatusName(s)), "error") <==> s == SubError
  {
    LowerNoUpper(StatusName(s));
    match s
    case SubError => assert StartsWith("error", "error");
    case NoDns => NoErrorIn("no_dns");
    case Https => NoErrorIn("https");
  }
}

=== FILE: wrappers.dfy ===
/** Optional values and results with an error, shared by every module. */
module Wrappers {

  /** Python's `None` or a present value. */
  datatype Option<+T> = None | Some(value: T)

  /** The value a call returns, or the error it raises instead. */
  datatype Result<+T, +E> = Success(value: T) | Failure(error: E)
}
